=== FILE: README.md ===
# MUN assistant: inference pipeline and prompt composer

This is a Dafny model of the core of the Model United Nations assistant in
`app.py`. The core is the path from a user's request to the text shown for
it:

- **Credential gate** (`validate_api_key`). An access token must be present,
  start with `hf_` and be longer than ten characters.
- **Retry driver** (`hf_post_with_retries`). It POSTs up to four times.
  Statuses 429, 500 and 503 and network exceptions are retried. The back-off
  is `base * 2^(n-1)`, plus `0.2 * n` for a retried status, where `n` is the
  attempt counter after the failure. Running out of attempts raises
  `RuntimeError`.
- **Query pipeline** (`MUNAssistant.query_huggingface`). It gates the key,
  builds the request and drives it. A 200 body is normalized to the
  generated text. Any other status is classified into a user-facing message
  that starts with `Error:` or `API Error`.
- **Prompt composer** (`MUNAssistant.create_mun_prompt`). It picks one of six
  templates by mode name, with a generic fallback for any other name. It
  fills a template from the committee table and the country profile table,
  falling back to a neutral profile for unknown countries.

Modules:

- `Strings` (strings.dfy): prefixes, substring containment, `", ".join`, and
  decimal rendering and reading of numbers.
- `Options` and `Json` (json.dfy): decoded JSON values, `dict.get` with
  last-key-wins, truthiness, `json.dumps` and `str`. An object is rendered
  as the dict `json.loads` builds: each key once, at its first position,
  with its last value.
- `Credential` (credential.dfy): the key check.
- `Retry` (retry.dfy): the driver. The network is a caller-supplied sequence
  of outcomes, one per POST. Sleeps are recorded as a list of waits instead
  of being slept. `DispatchFrom` is a recursive reference definition of the
  driver. `PostWithRetries` is the loop, proved equal to it. Besides
  returning a response or raising `RuntimeError`, the driver can end with
  the `ValueError` that `time.sleep` raises for a negative wait.
- `Respond` (respond.dfy): the 200-body normalizer, the status classifier and
  the failure messages. The pipeline first computes a tagged `Answer` (text or
  failure kind). `Flatten` then turns it into the value the source returns,
  up to the string escaping listed under "Left out". `ParseMessage` reads a
  failure back from its message.
- `Query` (query.dfy): `query_huggingface` end to end.
- `Composer` (composer.dfy): the two tables and the templates. Each f-string
  is split into its fixed texts and the ordered list of slots it substitutes.
  Whether a prompt shows a value, or ignores it, then follows from the slot
  list alone.

## Model

| member | source | states |
|---|---|---|
| `Credential.ValidateApiKey` | app.py:58-61 | A key passes exactly when it is present, has at least 11 characters and its first three are `h`, `f`, `_`. The emptiness test adds nothing to the length test. |
| `Credential.SampleKeys` | app.py:58-61 | `abc`, the empty key, a missing key and the 10-character `hf_1234567` are rejected; `hf_1234567890` is accepted. |
| `Retry.DispatchFrom` | app.py:64-86 | A run makes one call per recorded wait, plus one unless it ran out of attempts. It never exceeds the attempt budget. A returned response is the last call's answer and never has a retryable status. A refused sleep follows a retried last call whose back-off is negative, and carries that back-off. Exhaustion happens only with the budget fully spent. |
| `Retry.DispatchWaits` | app.py:73-84 | The i-th recorded wait follows a call that got 429/500/503 or raised. It equals that call's back-off at attempt counter i+1 and is non-negative. The jitter term applies only to statuses. |
| `Retry.Backoff` | app.py:76-83 | With a non-negative base, a back-off is never shorter than the base, and after a retried status it is at least 0.2 seconds longer than the base. |
| `Retry.PostWithRetries` | app.py:64-86 | The loop's calls, waits and ending equal the reference run, the `ValueError` of a negative sleep included. It makes at most the budgeted number of calls and never hands back a retryable status. |
| `Retry.ExhaustedIffAllRetried` | app.py:66-86 | The driver raises `RuntimeError` exactly when every attempt the budget allows got a retryable status or a network exception, each followed by a back-off `time.sleep` accepts. |
| `Retry.NonNegativeBaseNeverRejects` | app.py:64-86 | With a non-negative base, `time.sleep` never refuses a wait, and the driver raises `RuntimeError` exactly when every budgeted attempt failed retryably. |
| `Retry.NegativeBaseRejectsSleep` | app.py:74-77 | With base -1.0, a first 503 asks `time.sleep` for -0.8 seconds, and the driver ends with that `ValueError` after one call. |
| `Retry.AllRetriedExhausts` | app.py:74-86 | When every attempt fails retryably and is followed by an accepted sleep, the driver makes exactly the budgeted number of calls and sleeps after each of them, the last included. |
| `Retry.FinalOnFirstCall` | app.py:70-80 | A 200 or a non-retryable status on the first call returns that response after one call, with no sleep. |
| `Retry.RecoversAfterOneRetry` | app.py:71-78 | One retryable failure with an accepted back-off, followed by a 200, gives two calls, one wait of the first back-off, and the 200 response. |
| `Retry.StatusWaitsIncrease` | app.py:74-78 | For any non-negative base, two consecutive retried statuses sleep strictly longer the second time. |
| `Retry.NetWaitsIncrease` | app.py:81-84 | For a positive base, two consecutive network exceptions sleep strictly longer the second time: the wait doubles. |
| `Retry.NetWaitsFlatAtZeroBase` | app.py:81-84 | With base 0 every wait after an exception is zero, so exception waits grow only with a positive base. |
| `Json.Lookup` | app.py:144-148 | `get` finds nothing exactly when no member has the key. Otherwise it gives the value of the last member with that key. |
| `Json.LookupLast` | app.py:144-148 | Whatever precedes it, the last member with a key is the one `get` returns. |
| `Json.Keys` | app.py:142 | The dict's keys: every member's key occurs, only keys of members occur, each occurs once, the first member's key comes first, and of any two keys the earlier one first occurs before the later one does. |
| `Json.Render` | app.py:148-149 | A rendering is never empty. Lists start with `[`, objects with `{`, strings with the dialect's quote, and a number is its decimal form. |
| `Json.RenderShowsEntry` | app.py:148 | The dump of an object shows every key with the value `get` gives it. |
| `Json.RenderDictView` | app.py:142-148 | Two member lists with the same dict keys in the same order and the same value for every key dump identically, whatever repeated members they hold. |
| `Json.RepeatedKeyCollapses` | app.py:142-148 | Two members with one key dump as the second member alone, for every key and pair of values: the earlier value leaves no trace. |
| `Json.RepeatedKeyRendersOnce` | app.py:142-148 | The object `{"a": 1, "a": 2}` is dumped as `{"a": 2}`. |
| `Json.PyStr` | app.py:149 | `str` of a string is the string itself. `str` of any other value is its non-empty `repr`, which starts with a keyword initial, a bracket, a sign, a digit or a quote. |
| `Json.Truthy` | app.py:148 | The values the `or` treats as false are exactly `None`, `False`, `0`, `""`, `[]` and `{}`. |
| `Json.RenderStart` | app.py:148-149 | Both `json.dumps` and `str` of a non-string value begin with a keyword initial, a bracket, a sign, a digit or a quote. |
| `Strings.Join` | app.py:171 | `", ".join` of one part is that part. The joined text contains every part. |
| `Respond.Normalize` | app.py:140-151 | A 200 body fails (always as a parse failure) exactly when it does not parse, or when it is a non-empty list whose first element is not an object. Every other shape yields text. |
| `Respond.NormalizeListFirst` | app.py:143-144 | Only the first element of a non-empty list body is read. |
| `Respond.NormalizeListText` | app.py:143-144 | A list whose first element is an object yields that object's last `generated_text` value, whatever the value and whatever follows. |
| `Respond.NormalizeListPlaceholder` | app.py:143-144 | A list whose first element is an object without `generated_text` yields `(no text returned)`. |
| `Respond.NormalizeObjectText` | app.py:146-148 | An object whose last `generated_text` value is truthy yields that value, whatever other members it has. |
| `Respond.NormalizeObjectDumped` | app.py:146-148 | An object with no `generated_text`, or whose last one is falsy, yields its `json.dumps`. |
| `Respond.NormalizeOther` | app.py:149 | Any body that is neither an object nor a non-empty list yields its `str`. |
| `Respond.Classify` | app.py:153-161 | Every non-200 status maps to exactly one failure kind: 401/403 to authentication, 429 to rate limiting, 503 to loading, every other status to the catch-all with the status and body unchanged. |
| `Respond.Message` | app.py:126-161 | Every failure message starts with `Error:`, except the catch-all status message, which starts with `API Error`. |
| `Respond.UpstreamMessage` | app.py:161 | The catch-all message starts with `API Error`. |
| `Respond.Flatten` | app.py:126-161 | Generated text is returned unchanged, and every failure becomes a string the caller's prefix test flags. |
| `Respond.AnswerFor` | app.py:140-161 | A response other than 200 always yields a status failure, and a 200 never does. A response never yields the retries-exhausted or invalid-key failure. |
| `Respond.Reply` | app.py:135-138 | The retries-exhausted failure comes from exactly the `RuntimeError` ending. |
| `Respond.MessageRoundTrip` | app.py:126-161 | Reading a failure message back gives the failure it came from, including the status code and body of an upstream error. |
| `Respond.UpstreamRoundTrip` | app.py:161 | `API Error: <status> - <body>` reads back to the same status and body for every status and body text. |
| `Respond.MessageInjective` | app.py:126-161 | Distinct failures produce distinct messages. |
| `Respond.ErrorReplyIff` | app.py:339 | The caller's prefix test flags a reply exactly when the answer is a failure or generated text that happens to start with `Error:` or `API Error`. |
| `Respond.GeneratedTextCanLookLikeError` | app.py:339 | A successful generation that starts with `Error:` is flagged by the caller as a failure. |
| `Respond.SerializedFallbackNotFlagged` | app.py:146-149 | A serialized fallback (the `json.dumps` of an object without truthy `generated_text`, or the `str` of a non-string value) is text, and the caller never flags it as an error. |
| `Respond.NormalizeShapes` | app.py:140-149 | A one-element list of generation objects yields its text. So does a bare object with non-empty text. A string passes through unchanged, a number yields its decimal form, `[{}]` yields the placeholder and `[]` yields `[]`. |
| `Respond.EmptyTextOnlyFromList` | app.py:143-148 | An object never yields the empty string: an empty `generated_text` is falsy and the object is serialized instead. A list's first element can yield an empty generation as a success. |
| `Respond.RateLimitAndLoadingUnreachable` | app.py:153-159 | For every driver run that ends in a reply, the 429 and 503 messages and the invalid-key message never appear. A catch-all error never carries 200 or a retryable status. |
| `Query.BuildRequest` | app.py:128-134 | The URL is the service root followed by the model, the authorization header is `Bearer ` followed by the key, and the inputs are the prompt; each can be read back. |
| `Query.BuildRequestInjective` | app.py:128-134 | Distinct keys, models or prompts never produce the same request. |
| `Query.QueryHuggingface` | app.py:123-161 | A request is sent exactly when the key is valid. An invalid key returns its message with no call and no wait. A valid key gets the driver's run, which with the default base never refuses a sleep, flattened through the normalizer or the classifier. There are at most four calls, and all four failing retryably yields the retries-exhausted message after four calls and four waits. |
| `Composer.ModeNameRoundTrip` | app.py:167-230 | Each of the six template names selects its own template. |
| `Composer.RenderShowsHole` | app.py:168-181 | Rendering a template shows the value of each of its slots. |
| `Composer.RenderDependsOnlyOnHoles` | app.py:168-181 | Two fills that agree on a template's slots render it identically. |
| `Composer.ComposeIgnoresUnusedSlots` | app.py:167-232 | A prompt does not change when only values its template does not substitute change. |
| `Composer.CountryAndCommitteeSlots` | app.py:167-232 | All six templates substitute the country and the committee name; the fallback substitutes neither. |
| `Composer.TopicAndQuestionSlots` | app.py:167-232 | Every template except Crisis Response and the fallback substitutes the topic. Only Debate Speech, Crisis Response and the fallback substitute the question. |
| `Composer.ProfileSlots` | app.py:167-229 | Only Position Paper shows the stance. Only Position Paper and Debate Speech show the priorities. Only Negotiation Strategy shows the allies. |
| `Composer.ResolveCountry` | app.py:164 | A listed country gets its row and any other country the fallback profile. The profile lacks allies exactly for countries missing from the table. |
| `Composer.ResolveCommittee` | app.py:165 | A known code resolves to its full name and any other code is echoed. No full name equals its code, so the result equals the code exactly when the code is unknown. |
| `Composer.ModeOf` | app.py:167-232 | A selected template is the one whose key is the mode name, and the generic fallback is selected exactly when the name is none of the six keys. |
| `Composer.ProfileFill` | app.py:164-217 | The fill carries the request's values and the profile's stance. Every priority is listed, and so is every ally; a profile without allies lists `Various`. |
| `Composer.FillFor` | app.py:164-217 | The country, topic and question pass through unchanged, the committee is resolved, and the resolved profile's stance and every one of its priorities appear. |
| `Composer.CreateMunPrompt` | app.py:163-232 | The prompt is never empty, for every mode name and all inputs, and every value the selected template substitutes occurs in it. |
| `Composer.SixTemplatesShowCountry` | app.py:167-229 | Each of the six templates mentions the country as given. |
| `Composer.SixTemplatesShowCommittee` | app.py:165-229 | Each of the six templates mentions the committee's full name when its code is in the table, and the code itself otherwise. |
| `Composer.FiveTemplatesShowTopic` | app.py:167-229 | Every template except Crisis Response mentions the topic. |
| `Composer.GenericFallback` | app.py:232 | An unknown mode name gives exactly `MUN Question: <question>\n\nAnswer:`. |
| `Composer.DefaultProfileFill` | app.py:164 | The fallback profile renders as stance `Neutral`, priorities `Peace, Development` and allies `Various`. |
| `Composer.UnknownCountryStance` | app.py:164-170 | For a country missing from the table, the Position Paper states the stance `Neutral`. |
| `Composer.UnknownCountryPriorities` | app.py:164-198 | For a country missing from the table, the Position Paper and the Debate Speech list `Peace, Development`. |
| `Composer.UnknownCountryAllies` | app.py:164-217 | For a country missing from the table, the Negotiation Strategy lists the allies as `Various`. |
| `Composer.PromptIgnoresTopic` | app.py:205-212 | A template without a topic (Crisis Response, the fallback) gives the same prompt for every topic. |
| `Composer.PromptIgnoresQuestion` | app.py:167-229 | A template without a question gives the same prompt for every question. |

## Left out

- The Streamlit interface and its session handling (app.py:32-52, 239-411) are not modelled. The one exception is the prefix test the interface applies to a reply (app.py:339), which is `Respond.IsErrorReply`.
- Configuration and credential loading from the environment and secrets (app.py:6-9, 25-29, 93) are not modelled. The key is a parameter, and no token value appears in the model.
- `requests.post` and `time.sleep` are not modelled. Each POST's outcome comes from a caller-supplied sequence, and each sleep is recorded as a wait in seconds (a `real`) instead of being slept.
- The request timeout and transport details are left out, as are the headers beyond the bearer token.
- `max_new_tokens`, `temperature`, `do_sample` and `return_full_text` (app.py:123, 129-132) are not modelled. They only travel to the service and never influence the pipeline's logic.
- JSON parsing itself is left out: `resp.json()` is given as a decoded value or as a parse failure.
- Floating-point numbers in a body are left out (JSON numbers are integers here).
- String escaping in `json.dumps` and `repr` is left out; strings are rendered between plain quotes.
- `Retry.PostWithRetries`, `Retry.DispatchFrom` and `Query.QueryHuggingface` require one scripted outcome per attempt the budget allows. This stands in for a network that always answers or raises.
- `Retry.NetWaitsIncrease` requires a positive base. With base 0 the exception waits are all zero (`Retry.NetWaitsFlatAtZeroBase`), so strict growth holds only for the default base 1.0 and other positive bases.
- `Respond.Reply` is not defined for the `ValueError` ending. `query_huggingface` does not catch it, so no reply exists for that ending. With the default base of 1.0 it cannot occur (`Retry.NonNegativeBaseNeverRejects`).
- `Retry.Backoff` is computed on exact reals. Python computes the back-off in floating point (`0.2 * 3` is `0.6000000000000001`), and that rounding is not modelled.
- `Query.QueryHuggingface` returns a JSON value rather than a Python `str`. `generated_text` can hold any JSON value, and the source returns it unchanged.

## Behaviour worth noting

These are points where the code behaves in a way a reader might not
expect. The model follows the code.

- **Negative back-off.** A negative base can make a back-off negative. `time.sleep` then raises `ValueError`, and nothing catches it (`Retry.NegativeBaseRejectsSleep`).
- **Repeated keys.** An object with a repeated key keeps the key at its first position with its last value, both for `generated_text` and in `json.dumps` (`Json.RepeatedKeyRendersOnce`).
- **Sleep after the last attempt.** The driver sleeps after the last failed
  attempt too, before raising. Exhausting the budget therefore records as many
  waits as calls (`Retry.AllRetriedExhausts`).
- **Jitter.** The jitter is the deterministic `0.2 * n`, and it is added only
  after a retried status, not after an exception.
- **Parse failures.** A non-empty list whose first element is not an object
  is reported as a parse failure, because `.get` raises inside the `try`. So a
  parse failure is not limited to unparseable bodies (`Respond.Normalize`).
- **Failures are tagged only by their prefix.** Failures are strings that
  start with `Error:` or `API Error`, and the caller flags any string reply
  with such a prefix. Generated text starting with `Error:` is therefore
  taken for a failure (`Respond.GeneratedTextCanLookLikeError`). An empty generation can come back
  as a success (`Respond.EmptyTextOnlyFromList`).
- **Unreachable messages.** The 429 and 503 messages cannot be produced. The
  driver retries those statuses and raises when they persist, so the
  retries-exhausted message is shown instead
  (`Respond.RateLimitAndLoadingUnreachable`).
- **Crisis Response.** The Crisis Response template has no topic slot: the
  topic is dropped from that prompt (`Composer.PromptIgnoresTopic`).

=== FILE: composer.dfy ===
/** The prompt composer (app.py `MUNAssistant.create_mun_prompt`) and the
    static committee and country tables it reads. Each f-string template is
    split into its fixed texts and the list of values it substitutes between
    them (its holes), so what a template mentions is a property of its hole
    list alone. */
module Composer {
  import opened Options
  import opened Strings

  /** A country's row in the profile table. `allies` is `None` where the row
      has no `allies` key: only the fallback profile lacks it. */
  datatype Profile = Profile(stance: string, allies: Option<seq<string>>, priorities: seq<string>)

  /** The six output modes; any other mode name selects `Generic`. */
  datatype Mode =
    | PositionPaper
    | ResolutionDrafting
    | DebateSpeech
    | CrisisResponse
    | NegotiationStrategy
    | ResearchBrief
    | Generic

  /** The values a template can substitute. */
  datatype Slot = Country | CommitteeName | Topic | Question | Stance | Priorities | Allies

  /** One value per slot, already rendered to text. */
  datatype Fill = Fill(
    country: string,
    committee: string,
    topic: string,
    question: string,
    stance: string,
    priorities: string,
    allies: string)

  const Committees: map<string, string> := map[
    "UNSC" := "United Nations Security Council",
    "UNGA" := "United Nations General Assembly",
    "ECOSOC" := "Economic and Social Council",
    "HRC" := "Human Rights Council",
    "UNEP" := "United Nations Environment Programme",
    "WHO" := "World Health Organization",
    "UNESCO" := "United Nations Educational, Scientific and Cultural Organization"
  ]

  const CountryPositions: map<string, Profile> := map[
    "USA" := Profile("Western democratic", Some(["UK", "France", "Canada"]), ["Security", "Democracy", "Free Trade"]),
    "Russia" := Profile("Eastern power", Some(["China", "Belarus"]), ["Sovereignty", "Security", "Energy"]),
    "China" := Profile("Rising power", Some(["Russia", "Pakistan"]), ["Development", "Sovereignty", "Trade"]),
    "UK" := Profile("Western ally", Some(["USA", "France"]), ["Democracy", "Human Rights", "Trade"]),
    "France" := Profile("European leader", Some(["Germany", "UK"]), ["Multilateralism", "Climate", "Culture"]),
    "Germany" := Profile("European power", Some(["France", "EU"]), ["Environment", "Economy", "Peace"]),
    "India" := Profile("Non-aligned", Some(["Various"]), ["Development", "South-South Cooperation"]),
    "Brazil" := Profile("Regional power", Some(["BRICS"]), ["Environment", "Development", "Regional Stability"]),
    "South Africa" := Profile("African leader", Some(["AU"]), ["Human Rights", "Development", "Peace"]),
    "Japan" := Profile("Asian democracy", Some(["USA"]), ["Security", "Technology", "Regional Stability"])
  ]

  /** The profile of a country missing from the table: no `allies` key. */
  const DefaultProfile: Profile := Profile("Neutral", None, ["Peace", "Development"])

  /** The allies shown when a profile has no `allies` key. */
  const DefaultAllies: seq<string> := ["Various"]

  /** A listed country's row, or the fallback profile. Every row has
      allies, so the `['Various']` default is used exactly for countries
      missing from the table. */
  function ResolveCountry(country: string): (p: Profile)
    ensures country in CountryPositions ==> p == CountryPositions[country]
    ensures country !in CountryPositions ==> p == DefaultProfile
    ensures p.allies.None? <==> country !in CountryPositions
  {
    if country in CountryPositions then CountryPositions[country] else DefaultProfile
  }

  /** A known committee code resolves to its full name; any other is echoed.
      No full name equals its code, so a code comes back unchanged exactly
      when it is unknown. */
  function ResolveCommittee(code: string): (name: string)
    ensures code in Committees ==> name == Committees[code]
    ensures code !in Committees ==> name == code
    ensures name == code <==> code !in Committees
  {
    if code in Committees then Committees[code] else code
  }

  /** The template `prompts.get(mode, ...)` selects: one of the six keys
      selects its own template, every other name the generic fallback. */
  function ModeOf(name: string): (m: Mode)
    ensures m != Generic ==> ModeName(m) == name
    ensures m == Generic <==> forall k: Mode :: k != Generic ==> ModeName(k) != name
  {
    if name == "Position Paper" then PositionPaper
    else if name == "Resolution Drafting" then ResolutionDrafting
    else if name == "Debate Speech" then DebateSpeech
    else if name == "Crisis Response" then CrisisResponse
    else if name == "Negotiation Strategy" then NegotiationStrategy
    else if name == "Research Brief" then ResearchBrief
    else Generic
  }

  /** The key each of the six modes has in the template table. */
  function ModeName(m: Mode): string
    requires m != Generic
  {
    match m
    case PositionPaper => "Position Paper"
    case ResolutionDrafting => "Resolution Drafting"
    case DebateSpeech => "Debate Speech"
    case CrisisResponse => "Crisis Response"
    case NegotiationStrategy => "Negotiation Strategy"
    case ResearchBrief => "Research Brief"
  }

  /** Each of the six names selects its own template. */
  lemma ModeNameRoundTrip(m: Mode)
    requires m != Generic
    ensures ModeOf(ModeName(m)) == m
  {
  }

  /** The fixed instruction block that closes each template. */
  const PositionPaperInstructions: string :=
    "\"\nInclude:\n1) Official position (1 short paragraph)\n2) Historical context & national interest (2-3 short bullet points)\n3) Proposed solutions (3 concrete, implementable points)\n4) Areas for international cooperation (2 bullets)\n\nPosition Paper:\n"
  const ResolutionInstructions: string :=
    "\n\nDraft a UN-style resolution with:\n- 5 preambulatory clauses\n- 6 operative clauses (clear actions, responsible parties, and timelines where possible)\n- Use formal diplomatic language\n\nResolution:\n"
  const SpeechInstructions: string :=
    "\nUse formal diplomatic tone, reference the country's position, and propose 2-3 concrete policy steps.\nSpeech:\n"
  const CrisisInstructions: string :=
    ".\nRespond considering national interests, regional security, international law, and diplomatic relations.\nProvide an immediate statement (2 short paragraphs) and 3 recommended actions.\n\nCrisis Response:\n"
  const NegotiationInstructions: string :=
    "\n\nProvide a negotiation plan: key talking points, potential allies/opponents, compromise positions, and clear red lines.\n\nStrategy:\n"
  const BriefInstructions: string :=
    "\nProvide: 1) succinct background, 2) key facts & (where to check them), 3) stakeholders, 4) previous UN actions, 5) suggested next steps.\n\nBrief:\n"

  /** The fixed texts of each template, in order. A hole sits between each
      neighbouring pair, so a template has one more text than holes. */
  function Texts(m: Mode): seq<string> {
    match m
    case PositionPaper =>
      [ "\nYou are representing ", " in the ", ".\nCountry stance: ", "\nKey priorities: ",
        "\n\nWrite a concise position paper for ", " on the topic: \"", PositionPaperInstructions ]
    case ResolutionDrafting =>
      [ "\nYou are drafting a formal UN resolution for the ", " on \"", "\".\nLeading sponsor: ",
        ResolutionInstructions ]
    case DebateSpeech =>
      [ "\nYou are the delegate of ", " speaking in the ", ".\nTopic: ", "\nCountry priorities: ",
        "\n\nDeliver a 2-minute speech addressing: ", SpeechInstructions ]
    case CrisisResponse =>
      [ "\nCRISIS UPDATE: ", "\nYou are ", "'s delegate in ", CrisisInstructions ]
    case NegotiationStrategy =>
      [ "\nYou are strategizing for ", " in ", ".\nTopic: ", "\nAllies: ", NegotiationInstructions ]
    case ResearchBrief =>
      [ "\nResearch briefing for ", "'s delegation to ", " on: ", BriefInstructions ]
    case Generic =>
      [ "MUN Question: ", "\n\nAnswer:" ]
  }

  /** The values each template substitutes, in order. */
  function Holes(m: Mode): seq<Slot> {
    match m
    case PositionPaper => [Country, CommitteeName, Stance, Priorities, Country, Topic]
    case ResolutionDrafting => [CommitteeName, Topic, Country]
    case DebateSpeech => [Country, CommitteeName, Topic, Priorities, Question]
    case CrisisResponse => [Question, Country, CommitteeName]
    case NegotiationStrategy => [Country, CommitteeName, Topic, Allies]
    case ResearchBrief => [Country, CommitteeName, Topic]
    case Generic => [Question]
  }

  function Value(f: Fill, s: Slot): string {
    match s
    case Country => f.country
    case CommitteeName => f.committee
    case Topic => f.topic
    case Question => f.question
    case Stance => f.stance
    case Priorities => f.priorities
    case Allies => f.allies
  }

  /** The texts interleaved with the holes' values: `texts[0]`, the first
      hole's value, `texts[1]`, and so on, ending with the text after the
      last hole. A missing text counts as empty. */
  function RenderTemplate(texts: seq<string>, holes: seq<Slot>, f: Fill): (r: string)
    ensures |texts| > 0 ==> |r| >= |texts[0]|
    decreases |holes|
  {
    var head := if |texts| == 0 then "" else texts[0];
    if |holes| == 0 then head
    else head + Value(f, holes[0]) + RenderTemplate(if |texts| == 0 then [] else texts[1..], holes[1..], f)
  }

  /** Every hole of a template shows its value in the rendering. */
  lemma {:induction false} RenderShowsHole(texts: seq<string>, holes: seq<Slot>, f: Fill, i: nat)
    requires i < |holes|
    ensures Contains(RenderTemplate(texts, holes, f), Value(f, holes[i]))
    decreases i
  {
    var head := if |texts| == 0 then "" else texts[0];
    var tail := if |texts| == 0 then [] else texts[1..];
    var rest := RenderTemplate(tail, holes[1..], f);
    if i == 0 {
      ContainsMiddle(head, Value(f, holes[0]), rest);
    } else {
      assert holes[1..][i - 1] == holes[i];
      RenderShowsHole(tail, holes[1..], f, i - 1);
      ContainsExtend(rest, Value(f, holes[i]), head + Value(f, holes[0]), "");
      assert head + Value(f, holes[0]) + rest + "" == RenderTemplate(texts, holes, f);
    }
  }

  /** Every slot among the holes shows its value in the rendering. */
  lemma RenderShowsSlot(texts: seq<string>, holes: seq<Slot>, f: Fill, s: Slot)
    requires s in holes
    ensures Contains(RenderTemplate(texts, holes, f), Value(f, s))
  {
    var i :| 0 <= i < |holes| && holes[i] == s;
    RenderShowsHole(texts, holes, f, i);
  }

  /** Two fills that agree on every slot a template uses render it alike:
      a template's output depends only on its holes. */
  lemma {:induction false} RenderDependsOnlyOnHoles(texts: seq<string>, holes: seq<Slot>, f: Fill, g: Fill)
    requires forall i :: 0 <= i < |holes| ==> Value(f, holes[i]) == Value(g, holes[i])
    ensures RenderTemplate(texts, holes, f) == RenderTemplate(texts, holes, g)
    decreases |holes|
  {
    if |holes| > 0 {
      assert forall i :: 0 <= i < |holes| - 1 ==> holes[1..][i] == holes[i + 1];
      RenderDependsOnlyOnHoles(if |texts| == 0 then [] else texts[1..], holes[1..], f, g);
    }
  }

  /** The fill for one request: the request's own values, the resolved
      committee name and the country's profile, every priority and ally of
      which is listed. */
  function FillFor(country: string, committee: string, topic: string, question: string): (f: Fill)
    ensures f.country == country && f.committee == ResolveCommittee(committee)
    ensures f.topic == topic && f.question == question
    ensures f.stance == ResolveCountry(country).stance
    ensures forall i :: 0 <= i < |ResolveCountry(country).priorities| ==>
              Contains(f.priorities, ResolveCountry(country).priorities[i])
  {
    ProfileFill(country, ResolveCountry(country), ResolveCommittee(committee), topic, question)
  }

  /** A profile rendered into a fill: priorities and allies joined by
      `", "`, and allies defaulting to `["Various"]` when the profile has
      none. */
  function ProfileFill(country: string, profile: Profile, committeeName: string, topic: string, question: string): (f: Fill)
    ensures f.country == country && f.committee == committeeName
    ensures f.topic == topic && f.question == question && f.stance == profile.stance
    ensures forall i :: 0 <= i < |profile.priorities| ==> Contains(f.priorities, profile.priorities[i])
    ensures profile.allies.Some? ==>
              forall i :: 0 <= i < |profile.allies.value| ==> Contains(f.allies, profile.allies.value[i])
    ensures profile.allies.None? ==> f.allies == Join(", ", DefaultAllies)
  {
    var allies := match profile.allies case Some(a) => a case None => DefaultAllies;
    Fill(country, committeeName, topic, question,
         profile.stance, Join(", ", profile.priorities), Join(", ", allies))
  }

  /** A mode's template rendered with a fill. */
  function Compose(m: Mode, f: Fill): string {
    RenderTemplate(Texts(m), Holes(m), f)
  }

  /** The prompt for one request. Total: every mode name, known or not,
      selects a template, and every value the selected template substitutes
      (the country, the resolved committee name, the topic, the question, or
      the country's stance, priorities or allies as the fill renders them)
      occurs in the prompt. Every template opens with fixed text, so no
      prompt is empty. */
  function CreateMunPrompt(mode: string, country: string, committee: string, topic: string, question: string): (r: string)
    ensures |r| > 0
    ensures forall s: Slot :: Uses(ModeOf(mode), s) ==>
              Contains(r, Value(FillFor(country, committee, topic, question), s))
  {
    var m := ModeOf(mode);
    var f := FillFor(country, committee, topic, question);
    assert forall s: Slot :: Uses(m, s) ==> Contains(Compose(m, f), Value(f, s)) by {
      forall s: Slot | Uses(m, s)
        ensures Contains(Compose(m, f), Value(f, s))
      {
        ComposeShowsSlot(m, f, s);
      }
    }
    ComposeNonEmpty(m, f);
    Compose(m, f)
  }

  /** Every template opens with fixed text, so no prompt is empty. */
  lemma ComposeNonEmpty(m: Mode, f: Fill)
    ensures |Compose(m, f)| > 0
  {
    match m
    case PositionPaper => assert Texts(m)[0] == "\nYou are representing ";
    case ResolutionDrafting => assert Texts(m)[0] == "\nYou are drafting a formal UN resolution for the ";
    case DebateSpeech => assert Texts(m)[0] == "\nYou are the delegate of ";
    case CrisisResponse => assert Texts(m)[0] == "\nCRISIS UPDATE: ";
    case NegotiationStrategy => assert Texts(m)[0] == "\nYou are strategizing for ";
    case ResearchBrief => assert Texts(m)[0] == "\nResearch briefing for ";
    case Generic => assert Texts(m)[0] == "MUN Question: ";
  }

  /** An unknown mode name gets the generic question-and-answer prompt. */
  lemma GenericFallback(mode: string, country: string, committee: string, topic: string, question: string)
    requires ModeOf(mode) == Generic
    ensures CreateMunPrompt(mode, country, committee, topic, question)
            == "MUN Question: " + question + "\n\nAnswer:"
  {
    var f := FillFor(country, committee, topic, question);
    assert RenderTemplate(Texts(Generic)[1..], Holes(Generic)[1..], f) == "\n\nAnswer:";
  }

  /** Whether a template has a hole for the slot. */
  predicate Uses(m: Mode, s: Slot) {
    s in Holes(m)
  }

  /** A slot a template uses always shows in the prompt. */
  lemma ComposeShowsSlot(m: Mode, f: Fill, s: Slot)
    requires Uses(m, s)
    ensures Contains(Compose(m, f), Value(f, s))
  {
    RenderShowsSlot(Texts(m), Holes(m), f, s);
  }

  /** A prompt does not change when only slots its template does not use
      change. */
  lemma ComposeIgnoresUnusedSlots(m: Mode, f: Fill, g: Fill)
    requires forall s: Slot :: Uses(m, s) ==> Value(f, s) == Value(g, s)
    ensures Compose(m, f) == Compose(m, g)
  {
    HolesAgree(m, f, g);
    RenderDependsOnlyOnHoles(Texts(m), Holes(m), f, g);
  }

  lemma HolesAgree(m: Mode, f: Fill, g: Fill)
    requires forall s: Slot :: Uses(m, s) ==> Value(f, s) == Value(g, s)
    ensures forall i :: 0 <= i < |Holes(m)| ==> Value(f, Holes(m)[i]) == Value(g, Holes(m)[i])
  {
    var hs := Holes(m);
    forall i | 0 <= i < |hs|
      ensures Value(f, hs[i]) == Value(g, hs[i])
    {
      assert Uses(m, hs[i]);
    }
  }

  /** All six templates name the country and the committee; the generic
      fallback names neither. */
  lemma CountryAndCommitteeSlots(m: Mode)
    ensures Uses(m, Country) <==> m != Generic
    ensures Uses(m, CommitteeName) <==> m != Generic
  {
    match m
    case PositionPaper =>
    case ResolutionDrafting =>
    case DebateSpeech =>
    case CrisisResponse =>
    case NegotiationStrategy =>
    case ResearchBrief =>
    case Generic =>
  }

  /** All templates but Crisis Response and the fallback name the topic; only
      Debate Speech, Crisis Response and the fallback carry the question. */
  lemma TopicAndQuestionSlots(m: Mode)
    ensures Uses(m, Topic) <==> m != Generic && m != CrisisResponse
    ensures Uses(m, Question) <==> m == DebateSpeech || m == CrisisResponse || m == Generic
  {
    match m
    case PositionPaper =>
    case ResolutionDrafting =>
    case DebateSpeech =>
    case CrisisResponse =>
    case NegotiationStrategy =>
    case ResearchBrief =>
    case Generic =>
  }

  /** Only Position Paper shows the stance, only Position Paper and Debate
      Speech the priorities, and only Negotiation Strategy the allies. */
  lemma ProfileSlots(m: Mode)
    ensures Uses(m, Stance) <==> m == PositionPaper
    ensures Uses(m, Priorities) <==> m == PositionPaper || m == DebateSpeech
    ensures Uses(m, Allies) <==> m == NegotiationStrategy
  {
    match m
    case PositionPaper =>
    case ResolutionDrafting =>
    case DebateSpeech =>
    case CrisisResponse =>
    case NegotiationStrategy =>
    case ResearchBrief =>
    case Generic =>
  }

  /** Each of the six templates names the country. */
  lemma SixTemplatesShowCountry(mode: string, country: string, committee: string, topic: string, question: string)
    requires ModeOf(mode) != Generic
    ensures Contains(CreateMunPrompt(mode, country, committee, topic, question), country)
  {
    CountryAndCommitteeSlots(ModeOf(mode));
    assert Value(FillFor(country, committee, topic, question), Country) == country;
  }

  /** Each of the six templates names the resolved committee: its full name
      when the code is in the table, the code itself otherwise. */
  lemma SixTemplatesShowCommittee(mode: string, country: string, committee: string, topic: string, question: string)
    requires ModeOf(mode) != Generic
    ensures Contains(CreateMunPrompt(mode, country, committee, topic, question), ResolveCommittee(committee))
  {
    CountryAndCommitteeSlots(ModeOf(mode));
    assert Value(FillFor(country, committee, topic, question), CommitteeName) == ResolveCommittee(committee);
  }

  /** All six templates but Crisis Response name the topic. */
  lemma FiveTemplatesShowTopic(mode: string, country: string, committee: string, topic: string, question: string)
    requires ModeOf(mode) != Generic && ModeOf(mode) != CrisisResponse
    ensures Contains(CreateMunPrompt(mode, country, committee, topic, question), topic)
  {
    TopicAndQuestionSlots(ModeOf(mode));
    assert Value(FillFor(country, committee, topic, question), Topic) == topic;
  }

  /** For a country missing from the table the Position Paper states the
      stance "Neutral". */
  lemma UnknownCountryStance(mode: string, country: string, committee: string, topic: string, question: string)
    requires country !in CountryPositions && ModeOf(mode) == PositionPaper
    ensures Contains(CreateMunPrompt(mode, country, committee, topic, question), "Neutral")
  {
    var f := FillFor(country, committee, topic, question);
    DefaultProfileFill(country, ResolveCommittee(committee), topic, question);
    assert Value(f, Stance) == "Neutral";
    ProfileSlots(ModeOf(mode));
    assert Uses(ModeOf(mode), Stance);
  }

  /** For a country missing from the table the Position Paper and the
      Debate Speech list the priorities "Peace, Development". */
  lemma UnknownCountryPriorities(mode: string, country: string, committee: string, topic: string, question: string)
    requires country !in CountryPositions
    requires ModeOf(mode) == PositionPaper || ModeOf(mode) == DebateSpeech
    ensures Contains(CreateMunPrompt(mode, country, committee, topic, question), "Peace, Development")
  {
    var f := FillFor(country, committee, topic, question);
    DefaultProfileFill(country, ResolveCommittee(committee), topic, question);
    assert Value(f, Priorities) == "Peace, Development";
    var m := ModeOf(mode);
    if m == PositionPaper {
      ProfileSlots(PositionPaper);
    } else {
      ProfileSlots(DebateSpeech);
    }
    assert Uses(m, Priorities);
  }

  /** For a country missing from the table the Negotiation Strategy lists
      the allies as "Various". */
  lemma UnknownCountryAllies(mode: string, country: string, committee: string, topic: string, question: string)
    requires country !in CountryPositions && ModeOf(mode) == NegotiationStrategy
    ensures Contains(CreateMunPrompt(mode, country, committee, topic, question), "Various")
  {
    var f := FillFor(country, committee, topic, question);
    DefaultProfileFill(country, ResolveCommittee(committee), topic, question);
    assert Value(f, Allies) == "Various";
    ProfileSlots(ModeOf(mode));
    assert Uses(ModeOf(mode), Allies);
  }

  /** A template without a topic hole gives the same prompt for every topic. */
  lemma PromptIgnoresTopic(mode: string, country: string, committee: string, topic1: string, topic2: string, question: string)
    requires !Uses(ModeOf(mode), Topic)
    ensures CreateMunPrompt(mode, country, committee, topic1, question)
            == CreateMunPrompt(mode, country, committee, topic2, question)
  {
    var f := FillFor(country, committee, topic1, question);
    var g := FillFor(country, committee, topic2, question);
    assert forall s: Slot :: s != Topic ==> Value(f, s) == Value(g, s);
    ComposeIgnoresUnusedSlots(ModeOf(mode), f, g);
  }

  /** A template without a question hole gives the same prompt for every
      question. */
  lemma PromptIgnoresQuestion(mode: string, country: string, committee: string, topic: string, question1: string, question2: string)
    requires !Uses(ModeOf(mode), Question)
    ensures CreateMunPrompt(mode, country, committee, topic, question1)
            == CreateMunPrompt(mode, country, committee, topic, question2)
  {
    var f := FillFor(country, committee, topic, question1);
    var g := FillFor(country, committee, topic, question2);
    assert forall s: Slot :: s != Question ==> Value(f, s) == Value(g, s);
    ComposeIgnoresUnusedSlots(ModeOf(mode), f, g);
  }

  /** A country missing from the table is described as "Neutral" with
      priorities "Peace, Development" and allies "Various". */
  lemma DefaultProfileFill(country: string, committeeName: string, topic: string, question: string)
    ensures ProfileFill(country, DefaultProfile, committeeName, topic, question).stance == "Neutral"
    ensures ProfileFill(country, DefaultProfile, committeeName, topic, question).priorities == "Peace, Development"
    ensures ProfileFill(country, DefaultProfile, committeeName, topic, question).allies == "Various"
  {
    var f := ProfileFill(country, DefaultProfile, committeeName, topic, question);
    assert f.priorities == Join(", ", ["Peace", "Development"]);
    JoinTwo(", ", "Peace", "Development");
    assert f.allies == Join(", ", ["Various"]);
  }
}

=== FILE: credential.dfy ===
/** The structural check every access token passes before it may be sent to
    the inference service (app.py `validate_api_key`). */
module Credential {
  import opened Options
  import opened Strings

  const TokenPrefix: string := "hf_"

  /** A missing or empty key fails; otherwise the key must start with `hf_`
      and be longer than ten characters. The emptiness test adds nothing to
      the length test: a key passes exactly when it is present, has at least
      eleven characters and its first three are `h`, `f`, `_`. */
  function ValidateApiKey(key: Option<string>): (ok: bool)
    ensures ok <==>
              key.Some? && |key.value| >= 11
              && key.value[0] == 'h' && key.value[1] == 'f' && key.value[2] == '_'
  {
    match key
    case None => false
    case Some(k) =>
      assert |k| >= 3 && k[0] == 'h' && k[1] == 'f' && k[2] == '_' ==> k[..3] == TokenPrefix;
      |k| > 0 && StartsWith(k, TokenPrefix) && |k| > 10
  }

  /** The two sample keys: a short non-token fails and a well-formed token passes. */
  lemma SampleKeys()
    ensures !ValidateApiKey(Some("abc"))
    ensures !ValidateApiKey(Some(""))
    ensures !ValidateApiKey(None)
    ensures !ValidateApiKey(Some("hf_1234567"))
    ensures ValidateApiKey(Some("hf_1234567890"))
  {
    assert "hf_1234567890"[..3] == TokenPrefix;
  }
}

=== FILE: json.dfy ===
/** The optional value used for Python's `None`-or-value results. */
module Options {

  datatype Option<+T> = None | Some(value: T)
}

/** JSON values as Python's `json` module hands them to the pipeline, the two
    ways the pipeline turns them back into text (`json.dumps` and `str`), and
    Python's truthiness of them. */
module Json {
  import opened Options
  import opened Strings

  /** A decoded JSON value. Objects keep their members in document order. */
  datatype Json =
    | JNull
    | JBool(b: bool)
    | JNum(n: int)
    | JStr(s: string)
    | JList(items: seq<Json>)
    | JObj(fields: seq<Field>)

  datatype Field = Field(key: string, value: Json)

  /** What `resp.json()` yields for a response body: a value, or an exception. */
  datatype Body = Parsed(value: Json) | Unparseable

  /** `obj.get(key)`: when a key is repeated the last member wins, as `json.loads`
      builds its dict. */
  function Lookup(fields: seq<Field>, key: string): (r: Option<Json>)
    ensures r.None? <==> forall i :: 0 <= i < |fields| ==> fields[i].key != key
    ensures r.Some? ==> exists i :: 0 <= i < |fields| && fields[i] == Field(key, r.value)
                                    && forall k :: i < k < |fields| ==> fields[k].key != key
  {
    match LastIndex(fields, key, |fields|)
    case None => None
    case Some(i) => Some(fields[i].value)
  }

  /** The position of the last member among the first `n` with the key. */
  function LastIndex(fields: seq<Field>, key: string, n: nat): (r: Option<nat>)
    requires n <= |fields|
    ensures r.None? <==> forall i :: 0 <= i < n ==> fields[i].key != key
    ensures r.Some? ==> r.value < n && fields[r.value].key == key
                        && forall k :: r.value < k < n ==> fields[k].key != key
    decreases n
  {
    if n == 0 then None
    else if fields[n - 1].key == key then Some(n - 1)
    else LastIndex(fields, key, n - 1)
  }

  /** The member that occurs last with a key is the one `get` sees. */
  lemma LookupLast(fields: seq<Field>, key: string, i: nat)
    requires i < |fields| && fields[i].key == key
    requires forall k :: i < k < |fields| ==> fields[k].key != key
    ensures Lookup(fields, key) == Some(fields[i].value)
  {
  }

  /** Python's `bool(v)`: `None`, `False`, `0`, `""`, `[]` and `{}` are false,
      and every other value is true. */
  predicate Truthy(j: Json)
    ensures !Truthy(j) <==> j in {JNull, JBool(false), JNum(0), JStr(""), JList([]), JObj([])}
  {
    match j
    case JNull => false
    case JBool(b) => b
    case JNum(n) => n != 0
    case JStr(s) => |s| > 0
    case JList(items) => |items| > 0
    case JObj(fields) => |fields| > 0
  }

  /** The two textual forms: `json.dumps` and Python's `repr` of the decoded value. */
  datatype Dialect = JsonText | PythonRepr

  function QuoteChar(d: Dialect): char {
    if d == JsonText then '"' else '\''
  }

  function Quote(d: Dialect, s: string): (r: string)
    ensures |r| >= 2 && r[0] == QuoteChar(d)
  {
    [QuoteChar(d)] + s + [QuoteChar(d)]
  }

  /** Renders a value with `", "` between items and `": "` after keys, the
      default separators of both `json.dumps` and `repr`. */
  function Render(d: Dialect, j: Json): (r: string)
    ensures |r| > 0
    ensures j.JList? ==> r[0] == '['
    ensures j.JObj? ==> r[0] == '{'
    ensures j.JStr? ==> r[0] == QuoteChar(d)
    ensures j.JNum? ==> r == IntToString(j.n)
    decreases j
  {
    match j
    case JNull => if d == JsonText then "null" else "None"
    case JBool(b) =>
      if d == JsonText then (if b then "true" else "false")
      else (if b then "True" else "False")
    case JNum(n) => IntToString(n)
    case JStr(s) => Quote(d, s)
    case JList(items) => "[" + RenderItems(d, items) + "]"
    case JObj(fields) => "{" + RenderEntries(d, fields, Keys(fields)) + "}"
  }

  function RenderItems(d: Dialect, items: seq<Json>): string
    decreases items
  {
    if |items| == 0 then ""
    else if |items| == 1 then Render(d, items[0])
    else Render(d, items[0]) + ", " + RenderItems(d, items[1..])
  }

  /** The dict entries for `keys`, in that order, each with the value the
      dict holds for it. */
  function RenderEntries(d: Dialect, fields: seq<Field>, keys: seq<string>): string
    decreases fields, |keys|
  {
    if |keys| == 0 then ""
    else if |keys| == 1 then Entry(d, fields, keys[0])
    else Entry(d, fields, keys[0]) + ", " + RenderEntries(d, fields, keys[1..])
  }

  /** `"key": value` for the value the dict holds for `key`. */
  function Entry(d: Dialect, fields: seq<Field>, key: string): string
    decreases fields, 0
  {
    match LastIndex(fields, key, |fields|)
    case None => ""
    case Some(i) => Quote(d, key) + ": " + Render(d, fields[i].value)
  }

  /** The keys of the dict `json.loads` builds from an object's members:
      each key once, at the position where it first occurs. A repeated key
      keeps that position and takes the last value (see `Lookup`). */
  function Keys(fields: seq<Field>): (ks: seq<string>)
    ensures forall i :: 0 <= i < |fields| ==> fields[i].key in ks
    ensures forall k :: k in ks ==> exists i :: 0 <= i < |fields| && fields[i].key == k
    ensures forall i, j :: 0 <= i < j < |ks| ==> ks[i] != ks[j]
    ensures |fields| > 0 ==> |ks| > 0 && ks[0] == fields[0].key
    ensures forall i, j :: 0 <= i < j < |ks| ==> FirstBefore(fields, ks[i], ks[j])
    decreases |fields|
  {
    if |fields| == 0 then []
    else
      var init := fields[..|fields| - 1];
      var ks := Keys(init);
      var k := fields[|fields| - 1].key;
      assert forall i :: 0 <= i < |init| ==> init[i] == fields[i];
      KeysStep(init, fields, ks, k);
      if k in ks then ks else ks + [k]
  }

  /** Key `a` occurs in `fields` before the first occurrence of key `b`. */
  ghost predicate FirstBefore(fields: seq<Field>, a: string, b: string) {
    exists p :: 0 <= p < |fields| && fields[p].key == a
                && forall q :: 0 <= q <= p ==> fields[q].key != b
  }

  /** The order `Keys` keeps survives appending one member. */
  lemma KeysStep(init: seq<Field>, fields: seq<Field>, ks: seq<string>, k: string)
    requires |fields| == |init| + 1 && fields[|init|].key == k
    requires forall i :: 0 <= i < |init| ==> init[i] == fields[i]
    requires forall i :: 0 <= i < |init| ==> init[i].key in ks
    requires forall x :: x in ks ==> exists i :: 0 <= i < |init| && init[i].key == x
    requires forall i, j :: 0 <= i < j < |ks| ==> FirstBefore(init, ks[i], ks[j])
    ensures forall i, j :: 0 <= i < j < |ks| ==> FirstBefore(fields, ks[i], ks[j])
    ensures k !in ks ==>
              forall i, j :: 0 <= i < j < |ks + [k]| ==> FirstBefore(fields, (ks + [k])[i], (ks + [k])[j])
  {
    forall i, j | 0 <= i < j < |ks|
      ensures FirstBefore(fields, ks[i], ks[j])
    {
      FirstBeforeExtend(init, fields, ks[i], ks[j]);
    }
    if k !in ks {
      var ks' := ks + [k];
      forall i, j | 0 <= i < j < |ks'|
        ensures FirstBefore(fields, ks'[i], ks'[j])
      {
        if j < |ks| {
          assert ks'[i] == ks[i] && ks'[j] == ks[j];
        } else {
          assert ks'[i] == ks[i] && ks[i] in ks;
          var p :| 0 <= p < |init| && init[p].key == ks[i];
          assert fields[p].key == ks[i];
          assert forall q :: 0 <= q <= p ==> fields[q].key != k by {
            forall q | 0 <= q <= p ensures fields[q].key != k {
              assert fields[q] == init[q] && init[q].key in ks;
            }
          }
        }
      }
    }
  }

  lemma FirstBeforeExtend(init: seq<Field>, fields: seq<Field>, a: string, b: string)
    requires |init| <= |fields| && forall i :: 0 <= i < |init| ==> init[i] == fields[i]
    requires FirstBefore(init, a, b)
    ensures FirstBefore(fields, a, b)
  {
    var p :| 0 <= p < |init| && init[p].key == a && forall q :: 0 <= q <= p ==> init[q].key != b;
    assert fields[p].key == a;
  }

  /** `json.dumps` sees only the dict: two member lists with the same keys in
      the same order and the same value for every key render identically,
      whatever repeated members they hold. */
  lemma RenderDictView(d: Dialect, f1: seq<Field>, f2: seq<Field>)
    requires Keys(f1) == Keys(f2)
    requires forall k :: Lookup(f1, k) == Lookup(f2, k)
    ensures Render(d, JObj(f1)) == Render(d, JObj(f2))
  {
    EntriesAgree(d, f1, f2, Keys(f1));
  }

  lemma {:induction false} EntriesAgree(d: Dialect, f1: seq<Field>, f2: seq<Field>, keys: seq<string>)
    requires forall k :: Lookup(f1, k) == Lookup(f2, k)
    ensures RenderEntries(d, f1, keys) == RenderEntries(d, f2, keys)
    decreases |keys|
  {
    if |keys| > 0 {
      EntryAgrees(d, f1, f2, keys[0]);
      EntriesAgree(d, f1, f2, keys[1..]);
    }
  }

  lemma EntryAgrees(d: Dialect, f1: seq<Field>, f2: seq<Field>, key: string)
    requires Lookup(f1, key) == Lookup(f2, key)
    ensures Entry(d, f1, key) == Entry(d, f2, key)
  {
  }

  /** Two members with one key dump as the second member alone, whatever
      the values: the earlier value leaves no trace. */
  lemma RepeatedKeyCollapses(d: Dialect, key: string, v1: Json, v2: Json)
    ensures Render(d, JObj([Field(key, v1), Field(key, v2)])) == Render(d, JObj([Field(key, v2)]))
  {
    var f1 := [Field(key, v1), Field(key, v2)];
    var f2 := [Field(key, v2)];
    assert f1[..1] == [Field(key, v1)];
    assert Keys(f1) == [key] == Keys(f2);
    forall k ensures Lookup(f1, k) == Lookup(f2, k) {
      if k == key {
        LookupLast(f1, k, 1);
        LookupLast(f2, k, 0);
      }
    }
    RenderDictView(d, f1, f2);
  }

  /** Every key of an object is rendered once with the value `get` gives
      for it: an earlier member with a repeated key leaves no trace. */
  lemma RenderShowsEntry(d: Dialect, fields: seq<Field>, key: string)
    requires Lookup(fields, key).Some?
    ensures Contains(Render(d, JObj(fields)),
                     Quote(d, key) + ": " + Render(d, Lookup(fields, key).value))
  {
    var ks := Keys(fields);
    var i :| 0 <= i < |fields| && fields[i].key == key;
    var j :| 0 <= j < |ks| && ks[j] == key;
    EntriesShowKey(d, fields, ks, j);
    ContainsExtend(RenderEntries(d, fields, ks), Entry(d, fields, key), "{", "}");
  }

  lemma {:induction false} EntriesShowKey(d: Dialect, fields: seq<Field>, keys: seq<string>, j: nat)
    requires j < |keys|
    ensures Contains(RenderEntries(d, fields, keys), Entry(d, fields, keys[j]))
    decreases j
  {
    var member := Entry(d, fields, keys[0]);
    var rest := RenderEntries(d, fields, keys[1..]);
    if j == 0 {
      if |keys| == 1 {
        ContainsMiddle("", member, "");
        assert "" + member + "" == member;
      } else {
        ContainsMiddle("", member, ", " + rest);
        assert "" + member + (", " + rest) == RenderEntries(d, fields, keys);
      }
    } else {
      assert keys[1..][j - 1] == keys[j];
      EntriesShowKey(d, fields, keys[1..], j - 1);
      ContainsExtend(rest, Entry(d, fields, keys[j]), member + ", ", "");
      assert member + ", " + rest + "" == RenderEntries(d, fields, keys);
    }
  }

  /** `json.loads('{"a": 1, "a": 2}')` is `{'a': 2}`, which dumps as `{"a": 2}`. */
  lemma RepeatedKeyRendersOnce()
    ensures Render(JsonText, JObj([Field("a", JNum(1)), Field("a", JNum(2))])) == "{\"a\": 2}"
  {
    var fields := [Field("a", JNum(1)), Field("a", JNum(2))];
    assert fields[..1] == [Field("a", JNum(1))];
    assert Keys(fields[..1]) == ["a"];
    assert Keys(fields) == ["a"];
    assert LastIndex(fields, "a", 2) == Some(1);
  }

  /** The characters a rendering can start with: a keyword's initial, a
      bracket, a sign or digit, or a quote. */
  const ValueOpeners: string := "nNtTfF[{-0123456789\"'"

  lemma RenderStart(d: Dialect, j: Json)
    ensures Render(d, j)[0] in ValueOpeners
  {
    var r := Render(d, j);
    match j
    case JNull =>
    case JBool(b) =>
    case JNum(n) =>
      assert IsDigit(r[0]) || r[0] == '-';
    case JStr(s) =>
    case JList(items) =>
    case JObj(fields) =>
  }

  /** `str(v)`: a string is itself, everything else is its `repr`. */
  function PyStr(j: Json): (r: string)
    ensures j.JStr? ==> r == j.s
    ensures !j.JStr? ==> |r| > 0 && r[0] in ValueOpeners
  {
    if j.JStr? then j.s else RenderStart(PythonRepr, j); Render(PythonRepr, j)
  }
}

=== FILE: query.dfy ===
/** One inference request end to end (app.py `MUNAssistant.query_huggingface`):
    gate the key, build the request, drive it through the retries, and turn
    what comes back into the single value handed to the caller. */
module Query {
  import opened Options
  import opened Json
  import opened Retry
  import opened Respond
  import opened Credential
  import opened Strings

  const BaseUrl: string := "https://api-inference.huggingface.co/models/"

  /** The driver's defaults, which `query_huggingface` does not override. */
  const MaxAttempts: int := 4
  const BackoffBase: real := 1.0

  /** What goes on the wire: the model's URL, the bearer header and the prompt. */
  datatype Request = Request(url: string, authorization: string, inputs: string)

  const BearerPrefix: string := "Bearer "

  /** The model's URL under the service root, the key as a bearer token and
      the prompt as the inputs: each can be read back from the request. */
  function BuildRequest(key: string, model: string, prompt: string): (r: Request)
    ensures StartsWith(r.url, BaseUrl) && r.url[|BaseUrl|..] == model
    ensures StartsWith(r.authorization, BearerPrefix) && r.authorization[|BearerPrefix|..] == key
    ensures r.inputs == prompt
  {
    StartsWithConcat(BaseUrl, model);
    StartsWithConcat(BearerPrefix, key);
    Request(BaseUrl + model, BearerPrefix + key, prompt)
  }

  /** Distinct keys, models or prompts never produce the same request. */
  lemma BuildRequestInjective(key1: string, model1: string, prompt1: string,
                              key2: string, model2: string, prompt2: string)
    requires BuildRequest(key1, model1, prompt1) == BuildRequest(key2, model2, prompt2)
    ensures key1 == key2 && model1 == model2 && prompt1 == prompt2
  {
  }

  /** Runs the pipeline for one prompt. `outcomes` scripts the network for the
      driver; `sent` is the request handed to it, if any. */
  method QueryHuggingface(apiKey: Option<string>, model: string, prompt: string, outcomes: seq<Outcome>)
    returns (reply: Json, sent: Option<Request>, calls: nat, waits: seq<real>)
    requires ValidateApiKey(apiKey) ==> MaxAttempts <= |outcomes|
    // an invalid or missing key never reaches the network
    ensures sent.Some? <==> ValidateApiKey(apiKey)
    ensures !ValidateApiKey(apiKey) ==> reply == JStr(InvalidKeyMessage) && calls == 0 && waits == []
    ensures ValidateApiKey(apiKey) ==>
              && sent == Some(BuildRequest(apiKey.value, model, prompt))
              && calls == Dispatch(outcomes, MaxAttempts, BackoffBase).calls
              && waits == Dispatch(outcomes, MaxAttempts, BackoffBase).waits
              && !Dispatch(outcomes, MaxAttempts, BackoffBase).result.SleepRejected?
              && reply == Flatten(Reply(Dispatch(outcomes, MaxAttempts, BackoffBase).result))
    ensures calls <= MaxAttempts
    // every attempt failing in a retryable way ends in the retries-exhausted message
    ensures ValidateApiKey(apiKey) && (forall i :: 0 <= i < MaxAttempts ==> Retried(outcomes[i])) ==>
              reply == JStr(ExhaustedMessage) && calls == MaxAttempts && |waits| == MaxAttempts
  {
    if !ValidateApiKey(apiKey) {
      return Flatten(Failed(InvalidCredential)), None, 0, [];
    }
    var request := BuildRequest(apiKey.value, model, prompt);
    sent := Some(request);
    var result;
    calls, waits, result := PostWithRetries(outcomes, MaxAttempts, BackoffBase);
    // the default base of 1.0 never asks time.sleep for a negative wait
    NonNegativeBaseNeverRejects(outcomes, MaxAttempts, BackoffBase);
    reply := Flatten(Reply(result));
  }
}

=== FILE: respond.dfy ===
/** What `query_huggingface` makes of the driver's result: the normalizer for
    a 200 body, the classifier for every other status, and the string
    convention (`Error:` / `API Error` prefixes) by which the caller tells a
    failure from generated text. The pipeline is computed as a tagged
    `Answer` and then flattened to the value the source returns, up to the
    string escaping and floating-point numbers the model leaves out. */
module Respond {
  import opened Options
  import opened Strings
  import opened Json
  import opened Retry

  /** The failure kinds the pipeline reports; only the last one carries data. */
  datatype Failure =
    | InvalidCredential
    | AuthFailure
    | RateLimited
    | ModelLoading
    | NetworkExhausted
    | ParseFailure
    | UpstreamOther(code: nat, text: string)

  /** A value for the caller: generated text (any JSON value the model put in
      `generated_text`, or a serialization), or a failure. */
  datatype Answer = Text(value: Json) | Failed(failure: Failure)

  /** The two prefixes the caller reads as "this is a failure". */
  const ErrorTag: string := "Error:"
  const ApiErrorTag: string := "API Error"

  const InvalidKeyMessage: string := ErrorTag + " Invalid or missing HuggingFace API key. It should start with 'hf_'."
  const ExhaustedMessage: string := ErrorTag + " Failed to reach the HuggingFace Inference API after retries"
  const ParseErrorMessage: string := ErrorTag + " Unable to parse response JSON from model."
  const AuthMessage: string := ErrorTag + " Authentication failed (401/403). Please check your HuggingFace API key and permissions."
  const RateLimitMessage: string := ErrorTag + " Rate limited (429). Try again later or use a smaller model."
  const LoadingMessage: string := ErrorTag + " Model is currently loading (503). Try again in a few moments."
  const UpstreamPrefix: string := ApiErrorTag + ": "
  const NoTextPlaceholder: string := "(no text returned)"
  const GeneratedTextKey: string := "generated_text"

  /** The user-facing string of each failure. */
  function Message(f: Failure): (m: string)
    ensures f.UpstreamOther? ==> StartsWith(m, ApiErrorTag)
    ensures !f.UpstreamOther? ==> StartsWith(m, ErrorTag)
  {
    FixedMessages();
    match f
    case InvalidCredential => InvalidKeyMessage
    case AuthFailure => AuthMessage
    case RateLimited => RateLimitMessage
    case ModelLoading => LoadingMessage
    case NetworkExhausted => ExhaustedMessage
    case ParseFailure => ParseErrorMessage
    case UpstreamOther(code, text) => UpstreamMessage(code, text)
  }

  /** `API Error: <status> - <body>`. */
  function UpstreamMessage(code: nat, text: string): (m: string)
    ensures StartsWith(m, ApiErrorTag)
  {
    assert UpstreamPrefix + NatToString(code) + " - " + text
           == ApiErrorTag + (": " + NatToString(code) + " - " + text);
    StartsWithConcat(ApiErrorTag, ": " + NatToString(code) + " - " + text);
    UpstreamPrefix + NatToString(code) + " - " + text
  }

  /** The value `query_huggingface` returns for an answer. */
  function Flatten(a: Answer): (r: Json)
    ensures a.Failed? ==> IsErrorReply(r)
    ensures a.Text? ==> r == a.value
  {
    match a
    case Text(v) => v
    case Failed(f) => JStr(Message(f))
  }

  /** The caller's test for a failure: a string starting with `Error:` or
      with `API Error`. */
  predicate IsErrorReply(reply: Json) {
    reply.JStr? && (StartsWith(reply.s, ErrorTag) || StartsWith(reply.s, ApiErrorTag))
  }

  /** The body of a 200 response. A non-empty list must start with an object
      (`.get` on anything else raises and is reported as a parse failure);
      an object yields its truthy `generated_text` or else its `json.dumps`;
      every other value, the empty list included, yields its `str`. */
  function Normalize(body: Body): (a: Answer)
    ensures a.Failed? ==> a.failure == ParseFailure
    ensures a.Failed? <==>
              body.Unparseable?
              || (body.value.JList? && |body.value.items| > 0 && !body.value.items[0].JObj?)
  {
    match body
    case Unparseable => Failed(ParseFailure)
    case Parsed(v) =>
      if v.JList? && |v.items| > 0 then
        var first := v.items[0];
        if first.JObj? then
          match Lookup(first.fields, GeneratedTextKey)
          case Some(t) => Text(t)
          case None => Text(JStr(NoTextPlaceholder))
        else Failed(ParseFailure)
      else if v.JObj? then
        var g := Lookup(v.fields, GeneratedTextKey);
        if g.Some? && Truthy(g.value) then Text(g.value) else Text(JStr(Render(JsonText, v)))  // json.dumps
      else Text(JStr(PyStr(v)))
  }

  /** Every status other than 200 maps to exactly one failure kind; only
      statuses outside 401, 403, 429 and 503 carry the raw status and body. */
  function Classify(code: nat, text: string): (f: Failure)
    requires code != 200
    ensures f.AuthFailure? <==> code == 401 || code == 403
    ensures f.RateLimited? <==> code == 429
    ensures f.ModelLoading? <==> code == 503
    ensures f.UpstreamOther? <==> code != 401 && code != 403 && code != 429 && code != 503
    ensures f.UpstreamOther? ==> f.code == code && f.text == text
  {
    if code == 401 || code == 403 then AuthFailure
    else if code == 429 then RateLimited
    else if code == 503 then ModelLoading
    else UpstreamOther(code, text)
  }

  /** A response returned by the driver. A 200 never yields a status
      failure and every other status does. */
  function AnswerFor(resp: Response): (a: Answer)
    ensures resp.status != 200 <==> a.Failed? && a.failure != ParseFailure
    ensures a.Failed? ==> a.failure != NetworkExhausted && a.failure != InvalidCredential
  {
    if resp.status == 200 then Normalize(resp.body) else Failed(Classify(resp.status, resp.text))
  }

  /** How the driver ended, as an answer; a `RuntimeError` becomes its
      message. The `ValueError` of a refused sleep is not caught by
      `query_huggingface`, so that ending has no answer. */
  function Reply(d: Dispatched): (a: Answer)
    requires !d.SleepRejected?
    ensures a == Failed(NetworkExhausted) <==> d.Exhausted?
  {
    match d
    case Exhausted => Failed(NetworkExhausted)
    case Returned(resp) => AnswerFor(resp)
  }

  /** Length of the run of decimal digits at the start of `s`. */
  function DigitRun(s: string): (k: nat)
    ensures k <= |s| && AllDigits(s[..k])
    ensures k < |s| ==> !IsDigit(s[k])
    decreases |s|
  {
    if |s| == 0 || !IsDigit(s[0]) then 0
    else
      var k := 1 + DigitRun(s[1..]);
      assert forall i :: 1 <= i < k ==> s[..k][i] == s[1..][..k - 1][i - 1];
      k
  }

  /** Reads a failure back from its message: the inverse of `Message`. */
  function ParseMessage(s: string): Option<Failure> {
    var fixed := ParseFixed(s);
    if fixed.Some? then fixed else ParseUpstream(s)
  }

  /** Recognizes the six fixed messages. */
  function ParseFixed(s: string): Option<Failure> {
    if s == InvalidKeyMessage then Some(InvalidCredential)
    else if s == AuthMessage then Some(AuthFailure)
    else if s == RateLimitMessage then Some(RateLimited)
    else if s == LoadingMessage then Some(ModelLoading)
    else if s == ExhaustedMessage then Some(NetworkExhausted)
    else if s == ParseErrorMessage then Some(ParseFailure)
    else None
  }

  /** Reads `API Error: <digits> - <body>`. */
  function ParseUpstream(s: string): Option<Failure> {
    if StartsWith(s, UpstreamPrefix) then
      var rest := s[|UpstreamPrefix|..];
      var k := DigitRun(rest);
      if k == 0 || !StartsWith(rest[k..], " - ") then None
      else Some(UpstreamOther(ParseNat(rest[..k]), rest[k + 3..]))
    else None
  }

  lemma {:induction false} DigitRunOfDigits(d: string, tail: string)
    requires AllDigits(d)
    requires |tail| > 0 && !IsDigit(tail[0])
    ensures DigitRun(d + tail) == |d|
    decreases |d|
  {
    if |d| > 0 {
      assert (d + tail)[1..] == d[1..] + tail;
      DigitRunOfDigits(d[1..], tail);
    } else {
      assert d + tail == tail;
    }
  }

  /** The six fixed messages start with `Error:` and differ pairwise. */
  lemma FixedMessages()
    ensures StartsWith(InvalidKeyMessage, ErrorTag) && StartsWith(AuthMessage, ErrorTag)
    ensures StartsWith(RateLimitMessage, ErrorTag) && StartsWith(LoadingMessage, ErrorTag)
    ensures StartsWith(ExhaustedMessage, ErrorTag) && StartsWith(ParseErrorMessage, ErrorTag)
    ensures |InvalidKeyMessage| == 74 && |AuthMessage| == 94 && |RateLimitMessage| == 66
    ensures |LoadingMessage| == 68 && |ExhaustedMessage| == 66 && |ParseErrorMessage| == 48
    ensures ExhaustedMessage != RateLimitMessage
  {
    StartsWithConcat(ErrorTag, InvalidKeyMessage[6..]);
    StartsWithConcat(ErrorTag, AuthMessage[6..]);
    StartsWithConcat(ErrorTag, RateLimitMessage[6..]);
    StartsWithConcat(ErrorTag, LoadingMessage[6..]);
    StartsWithConcat(ErrorTag, ExhaustedMessage[6..]);
    StartsWithConcat(ErrorTag, ParseErrorMessage[6..]);
    assert ExhaustedMessage[65] == 's' && RateLimitMessage[65] == '.';
  }

  /** No fixed message starts with `API Error`. */
  lemma UpstreamNotFixed(s: string)
    requires StartsWith(s, ApiErrorTag)
    ensures ParseFixed(s) == None
  {
    FixedMessages();
    assert s[0] == 'A';
  }

  /** The status code and body of an upstream message read back unchanged. */
  lemma UpstreamRoundTrip(code: nat, text: string)
    ensures ParseMessage(UpstreamMessage(code, text)) == Some(UpstreamOther(code, text))
  {
    var s := UpstreamMessage(code, text);
    assert s == ApiErrorTag + (": " + NatToString(code) + " - " + text);
    StartsWithConcat(ApiErrorTag, ": " + NatToString(code) + " - " + text);
    UpstreamNotFixed(s);
    ParseUpstreamOf(code, text);
  }

  lemma ParseUpstreamOf(code: nat, text: string)
    ensures ParseUpstream(UpstreamMessage(code, text)) == Some(UpstreamOther(code, text))
  {
    var digits := NatToString(code);
    var s := UpstreamMessage(code, text);
    assert s == UpstreamPrefix + (digits + " - " + text);
    StartsWithConcat(UpstreamPrefix, digits + " - " + text);
    var rest := s[|UpstreamPrefix|..];
    assert rest == digits + (" - " + text);
    DigitRunOfDigits(digits, " - " + text);
    assert rest[..|digits|] == digits;
    assert rest[|digits|..] == " - " + text;
    assert (" - " + text)[..3] == " - ";
    assert rest[|digits| + 3..] == text;
    ParseNatToString(code);
  }

  /** Every failure message names its failure unambiguously: reading it back
      gives the failure, status code and body text included. */
  lemma MessageRoundTrip(f: Failure)
    ensures ParseMessage(Message(f)) == Some(f)
  {
    FixedMessages();
    match f
    case UpstreamOther(code, text) => UpstreamRoundTrip(code, text);
    case _ =>
  }

  /** Distinct failures have distinct messages. */
  lemma MessageInjective(f: Failure, g: Failure)
    requires Message(f) == Message(g)
    ensures f == g
  {
    MessageRoundTrip(f);
    MessageRoundTrip(g);
  }

  /** The caller flags exactly the failures and the generated strings that
      happen to start with an error prefix. */
  lemma ErrorReplyIff(a: Answer)
    ensures IsErrorReply(Flatten(a)) <==>
              a.Failed?
              || (a.value.JStr? && (StartsWith(a.value.s, ErrorTag) || StartsWith(a.value.s, ApiErrorTag)))
  {
    FixedMessages();
    if a.Failed? && a.failure.UpstreamOther? {
      var m := UpstreamMessage(a.failure.code, a.failure.text);
      assert m == ApiErrorTag + (": " + NatToString(a.failure.code) + " - " + a.failure.text);
      StartsWithConcat(ApiErrorTag, ": " + NatToString(a.failure.code) + " - " + a.failure.text);
    }
  }

  /** Generated text can itself start with `Error:`, so the prefix convention
      can mistake a successful generation for a failure. */
  lemma GeneratedTextCanLookLikeError()
    ensures var body := Parsed(JList([JObj([Field(GeneratedTextKey, JStr(ErrorTag + " none"))])]));
            Normalize(body) == Text(JStr(ErrorTag + " none"))
            && IsErrorReply(Flatten(Normalize(body)))
  {
    StartsWithConcat(ErrorTag, " none");
  }

  /** A serialized fallback (`json.dumps` of an object, `str` of a non-string
      scalar or of the empty list) is never mistaken for a failure. */
  lemma SerializedFallbackNotFlagged(v: Json)
    requires !v.JStr?
    requires !(v.JList? && |v.items| > 0)
    requires v.JObj? ==> !(Lookup(v.fields, GeneratedTextKey).Some?
                           && Truthy(Lookup(v.fields, GeneratedTextKey).value))
    ensures Normalize(Parsed(v)).Text?
    ensures !IsErrorReply(Flatten(Normalize(Parsed(v))))
  {
    var s := Flatten(Normalize(Parsed(v))).s;
    if v.JObj? {
      assert s == Render(JsonText, v);
      RenderStart(JsonText, v);
    } else {
      assert s == Render(PythonRepr, v);
      RenderStart(PythonRepr, v);
    }
    assert s[0] != ErrorTag[0] && s[0] != ApiErrorTag[0];
  }

  /** Only the first element of a non-empty list body is read. */
  lemma NormalizeListFirst(x: Json, rest: seq<Json>)
    ensures Normalize(Parsed(JList([x] + rest))) == Normalize(Parsed(JList([x])))
  {
  }

  /** A list whose first element is an object yields the value of that
      object's last `generated_text` member, whatever the value is and
      whatever follows the object. */
  lemma NormalizeListText(fields: seq<Field>, rest: seq<Json>, i: nat)
    requires i < |fields| && fields[i].key == GeneratedTextKey
    requires forall k :: i < k < |fields| ==> fields[k].key != GeneratedTextKey
    ensures Normalize(Parsed(JList([JObj(fields)] + rest))) == Text(fields[i].value)
  {
    LookupLast(fields, GeneratedTextKey, i);
  }

  /** A list whose first element is an object without `generated_text`
      yields the placeholder. */
  lemma NormalizeListPlaceholder(fields: seq<Field>, rest: seq<Json>)
    requires forall k :: 0 <= k < |fields| ==> fields[k].key != GeneratedTextKey
    ensures Normalize(Parsed(JList([JObj(fields)] + rest))) == Text(JStr(NoTextPlaceholder))
  {
  }

  /** An object whose last `generated_text` member is truthy yields that
      value, whatever other members it has. */
  lemma NormalizeObjectText(fields: seq<Field>, i: nat)
    requires i < |fields| && fields[i].key == GeneratedTextKey
    requires forall k :: i < k < |fields| ==> fields[k].key != GeneratedTextKey
    requires Truthy(fields[i].value)
    ensures Normalize(Parsed(JObj(fields))) == Text(fields[i].value)
  {
    LookupLast(fields, GeneratedTextKey, i);
  }

  /** An object with no `generated_text` member, or whose last one is falsy,
      yields its `json.dumps`. */
  lemma NormalizeObjectDumped(fields: seq<Field>)
    requires forall i :: 0 <= i < |fields| && fields[i].key == GeneratedTextKey
                         && (forall k :: i < k < |fields| ==> fields[k].key != GeneratedTextKey)
                         ==> !Truthy(fields[i].value)
    ensures Normalize(Parsed(JObj(fields))) == Text(JStr(Render(JsonText, JObj(fields))))
  {
    var g := Lookup(fields, GeneratedTextKey);
    if g.Some? {
      var i :| 0 <= i < |fields| && fields[i] == Field(GeneratedTextKey, g.value)
               && forall k :: i < k < |fields| ==> fields[k].key != GeneratedTextKey;
      assert !Truthy(fields[i].value);
    }
  }

  /** Every body that is neither an object nor a non-empty list yields its
      `str`: a string is returned as it is, anything else as its `repr`. */
  lemma NormalizeOther(v: Json)
    requires !v.JObj? && !(v.JList? && |v.items| > 0)
    ensures Normalize(Parsed(v)) == Text(JStr(PyStr(v)))
  {
  }

  /** The shapes a 200 body takes: a one-element list of generation objects,
      a bare generation object, and plain scalars, which are serialized
      rather than rejected. */
  lemma NormalizeShapes(text: string, n: int)
    ensures Normalize(Parsed(JList([JObj([Field(GeneratedTextKey, JStr(text))])]))) == Text(JStr(text))
    ensures |text| > 0 ==> Normalize(Parsed(JObj([Field(GeneratedTextKey, JStr(text))]))) == Text(JStr(text))
    ensures Normalize(Parsed(JStr(text))) == Text(JStr(text))
    ensures Normalize(Parsed(JNum(n))) == Text(JStr(IntToString(n)))
    ensures Normalize(Parsed(JList([JObj([])]))) == Text(JStr(NoTextPlaceholder))
    ensures Normalize(Parsed(JList([]))) == Text(JStr("[]"))
  {
    assert RenderItems(PythonRepr, []) == "";
    assert Render(PythonRepr, JList([])) == "[" + "" + "]";
    assert PyStr(JList([])) == "[]";
  }

  /** An object's reply is never the empty string (an empty `generated_text`
      is falsy and the object is serialized instead), but a list's first
      element can deliver an empty generation as a success. */
  lemma EmptyTextOnlyFromList(v: Json)
    requires v.JObj?
    ensures Normalize(Parsed(v)) != Text(JStr(""))
    ensures Normalize(Parsed(JList([JObj([Field(GeneratedTextKey, JStr(""))])]))) == Text(JStr(""))
  {
  }

  /** The 429 and 503 messages cannot come out of a driven request: the
      driver never returns those statuses, it retries them. Only 401/403 and
      the upstream catch-all remain as status failures, and the catch-all
      never carries 200, 429, 500 or 503. */
  lemma RateLimitAndLoadingUnreachable(outcomes: seq<Outcome>, maxAttempts: int, base: real)
    requires maxAttempts <= |outcomes|
    ensures var d := Dispatch(outcomes, maxAttempts, base).result;
            !d.SleepRejected? ==>
            var a := Reply(d);
            && a != Failed(RateLimited)
            && a != Failed(ModelLoading)
            && a != Failed(InvalidCredential)
            && (a.Failed? && a.failure.UpstreamOther? ==>
                  a.failure.code != 200 && !RetryableStatus(a.failure.code))
  {
  }
}

=== FILE: retry.dfy ===
/** The retry driver (app.py `hf_post_with_retries`). The network is not
    called: the caller supplies the outcome each successive POST would have,
    and the driver records the back-off it would have slept instead of
    sleeping. */
module Retry {
  import opened Json

  /** An HTTP response: status code, raw body text and what `resp.json()`
      makes of that text. */
  datatype Response = Response(status: nat, text: string, body: Body)

  /** What one `requests.post` call produced: a response, or a
      `requests.RequestException`. */
  datatype Outcome = Answered(resp: Response) | NetError

  /** How the driver ended: it returned a response, it ran out of attempts
      and raised `RuntimeError`, or `time.sleep` refused a negative wait and
      raised `ValueError`, which neither the driver nor its caller catches. */
  datatype Dispatched = Returned(resp: Response) | Exhausted | SleepRejected(wait: real)

  /** Everything observable about one run of the driver: how many POSTs it
      made, the waits it slept in order, and how it ended. */
  datatype Run = Run(calls: nat, waits: seq<real>, result: Dispatched)

  /** Statuses worth another attempt: 429, 503 and 500. */
  predicate RetryableStatus(code: int) {
    code == 429 || code == 503 || code == 500
  }

  /** An outcome after which the driver counts an attempt and waits. */
  predicate Retried(o: Outcome) {
    o.NetError? || RetryableStatus(o.resp.status)
  }

  /** `2 ** n` */
  function Pow2(n: nat): (r: nat)
    ensures r >= 1
  {
    if n == 0 then 1 else 2 * Pow2(n - 1)
  }

  /** The wait after the failed call that brought the attempt counter to
      `attempt`: `base * 2^(attempt-1)`, plus `0.2 * attempt` when the call
      got a retryable status rather than an exception. */
  function Backoff(o: Outcome, attempt: nat, base: real): (w: real)
    requires attempt >= 1
    ensures base >= 0.0 ==> w >= base
    ensures base >= 0.0 && o.Answered? ==> w >= base + 0.2
  {
    assert base >= 0.0 ==> base * (Pow2(attempt - 1) as real) >= base by {
      if base >= 0.0 { BackoffDoubles(base, attempt - 1); }
    }
    if o.NetError? then base * (Pow2(attempt - 1) as real)
    else base * (Pow2(attempt - 1) as real) + 0.2 * (attempt as real)
  }

  /** Number of attempts `while attempt < max_attempts` allows. */
  function Budget(maxAttempts: int): nat {
    if maxAttempts < 0 then 0 else maxAttempts
  }

  /** `waits` are the sleeps after consecutive failed calls, the first of
      which brought the attempt counter from `attempt` to `attempt + 1`. */
  ghost predicate WaitsMatch(outcomes: seq<Outcome>, attempt: nat, waits: seq<real>, base: real) {
    && attempt + |waits| <= |outcomes|
    && forall i :: 0 <= i < |waits| ==> Slept(outcomes[attempt + i], attempt + i + 1, waits[i], base)
  }

  /** The call that brought the counter to `attempt` failed in a retryable
      way and was followed by a sleep of `wait`. */
  ghost predicate Slept(o: Outcome, attempt: nat, wait: real, base: real) {
    attempt >= 1 && Sleeps(o, attempt, base) && wait == Backoff(o, attempt, base)
  }

  /** After the call that brought the counter to `attempt`, the driver
      retries and its back-off is a wait `time.sleep` accepts. */
  predicate Sleeps(o: Outcome, attempt: nat, base: real)
    requires attempt >= 1
  {
    Retried(o) && Backoff(o, attempt, base) >= 0.0
  }

  lemma WaitsMatchCons(outcomes: seq<Outcome>, attempt: nat, waits: seq<real>, base: real)
    requires attempt < |outcomes| && Sleeps(outcomes[attempt], attempt + 1, base)
    requires WaitsMatch(outcomes, attempt + 1, waits, base)
    ensures WaitsMatch(outcomes, attempt, [Backoff(outcomes[attempt], attempt + 1, base)] + waits, base)
  {
    var all := [Backoff(outcomes[attempt], attempt + 1, base)] + waits;
    forall i | 0 <= i < |all|
      ensures Slept(outcomes[attempt + i], attempt + i + 1, all[i], base)
    {
      if i > 0 {
        assert all[i] == waits[i - 1];
        assert Slept(outcomes[(attempt + 1) + (i - 1)], (attempt + 1) + (i - 1) + 1, waits[i - 1], base);
      }
    }
  }

  /** The driver from the moment its attempt counter reads `attempt`, as a
      reference definition by recursion on the remaining attempts. Indices
      in the contract are relative to `attempt`. */
  function DispatchFrom(outcomes: seq<Outcome>, attempt: nat, maxAttempts: int, base: real): (r: Run)
    requires maxAttempts <= |outcomes|
    requires attempt <= Budget(maxAttempts)
    ensures r.calls == |r.waits| + (if r.result.Exhausted? then 0 else 1)
    ensures attempt + r.calls <= Budget(maxAttempts)
    ensures r.result.Returned? ==>
              outcomes[attempt + r.calls - 1] == Answered(r.result.resp)
              && !RetryableStatus(r.result.resp.status)
    ensures r.result.SleepRejected? ==>
              Retried(outcomes[attempt + r.calls - 1])
              && r.result.wait == Backoff(outcomes[attempt + r.calls - 1], attempt + r.calls, base)
              && r.result.wait < 0.0
    ensures r.result.Exhausted? ==> attempt + r.calls == Budget(maxAttempts)
    decreases Budget(maxAttempts) - attempt
  {
    if attempt >= maxAttempts then Run(0, [], Exhausted)
    else
      var o := outcomes[attempt];
      if o.Answered? && !RetryableStatus(o.resp.status) then Run(1, [], Returned(o.resp))
      else
        var wait := Backoff(o, attempt + 1, base);
        if wait < 0.0 then Run(1, [], SleepRejected(wait))
        else
          var rest := DispatchFrom(outcomes, attempt + 1, maxAttempts, base);
          Run(rest.calls + 1, [wait] + rest.waits, rest.result)
  }

  /** Each recorded wait follows a retried call and is that call's back-off. */
  lemma {:induction false} DispatchWaits(outcomes: seq<Outcome>, attempt: nat, maxAttempts: int, base: real)
    requires maxAttempts <= |outcomes|
    requires attempt <= Budget(maxAttempts)
    ensures WaitsMatch(outcomes, attempt, DispatchFrom(outcomes, attempt, maxAttempts, base).waits, base)
    decreases Budget(maxAttempts) - attempt
  {
    if attempt < maxAttempts {
      var o := outcomes[attempt];
      if !(o.Answered? && !RetryableStatus(o.resp.status)) && Backoff(o, attempt + 1, base) >= 0.0 {
        var rest := DispatchFrom(outcomes, attempt + 1, maxAttempts, base);
        DispatchWaits(outcomes, attempt + 1, maxAttempts, base);
        WaitsMatchCons(outcomes, attempt, rest.waits, base);
      }
    }
  }

  /** The whole run of the driver, starting with the counter at zero. */
  function Dispatch(outcomes: seq<Outcome>, maxAttempts: int, base: real): Run
    requires maxAttempts <= |outcomes|
  {
    DispatchFrom(outcomes, 0, maxAttempts, base)
  }

  /** The run `r` preceded by calls that each failed and slept `waits`. */
  function Prepend(waits: seq<real>, r: Run): Run {
    Run(|waits| + r.calls, waits + r.waits, r.result)
  }

  /** A retried attempt moves its wait from the reference run onto the
      waits already recorded. */
  lemma RetryStep(outcomes: seq<Outcome>, attempt: nat, maxAttempts: int, base: real, waits: seq<real>)
    requires maxAttempts <= |outcomes| && attempt < maxAttempts
    requires Sleeps(outcomes[attempt], attempt + 1, base)
    ensures Prepend(waits, DispatchFrom(outcomes, attempt, maxAttempts, base))
            == Prepend(waits + [Backoff(outcomes[attempt], attempt + 1, base)],
                       DispatchFrom(outcomes, attempt + 1, maxAttempts, base))
  {
    var rest := DispatchFrom(outcomes, attempt + 1, maxAttempts, base);
    var w := Backoff(outcomes[attempt], attempt + 1, base);
    assert waits + [w] + rest.waits == waits + ([w] + rest.waits);
  }

  /** An attempt the driver does not retry ends the run with its response. */
  lemma FinalStep(outcomes: seq<Outcome>, attempt: nat, maxAttempts: int, base: real, waits: seq<real>)
    requires maxAttempts <= |outcomes| && attempt < maxAttempts
    requires !Retried(outcomes[attempt])
    ensures Prepend(waits, DispatchFrom(outcomes, attempt, maxAttempts, base))
            == Run(|waits| + 1, waits, Returned(outcomes[attempt].resp))
  {
    assert waits + [] == waits;
  }

  /** A negative back-off ends the run with the `ValueError` of `time.sleep`. */
  lemma RejectStep(outcomes: seq<Outcome>, attempt: nat, maxAttempts: int, base: real, waits: seq<real>)
    requires maxAttempts <= |outcomes| && attempt < maxAttempts
    requires Retried(outcomes[attempt]) && Backoff(outcomes[attempt], attempt + 1, base) < 0.0
    ensures Prepend(waits, DispatchFrom(outcomes, attempt, maxAttempts, base))
            == Run(|waits| + 1, waits, SleepRejected(Backoff(outcomes[attempt], attempt + 1, base)))
  {
    assert waits + [] == waits;
  }

  /** With the budget spent the run ends exhausted. */
  lemma ExhaustedStep(outcomes: seq<Outcome>, attempt: nat, maxAttempts: int, base: real, waits: seq<real>)
    requires maxAttempts <= |outcomes| && attempt == Budget(maxAttempts)
    ensures Prepend(waits, DispatchFrom(outcomes, attempt, maxAttempts, base))
            == Run(|waits|, waits, Exhausted)
  {
    assert waits + [] == waits;
  }

  /** The driver loop. `outcomes[k]` is what the `k`-th POST yields; the
      network answers every call, so there is one outcome for each attempt
      the budget allows. */
  method PostWithRetries(outcomes: seq<Outcome>, maxAttempts: int, base: real)
    returns (calls: nat, waits: seq<real>, result: Dispatched)
    requires maxAttempts <= |outcomes|
    ensures Run(calls, waits, result) == Dispatch(outcomes, maxAttempts, base)
    ensures calls <= Budget(maxAttempts)
    ensures result.Returned? ==> !RetryableStatus(result.resp.status)
  {
    var attempt: nat := 0;
    waits := [];
    while attempt < maxAttempts
      invariant attempt <= Budget(maxAttempts)
      invariant |waits| == attempt
      invariant Dispatch(outcomes, maxAttempts, base)
                == Prepend(waits, DispatchFrom(outcomes, attempt, maxAttempts, base))
      decreases maxAttempts - attempt
    {
      var outcome := outcomes[attempt];
      if outcome.Answered? {
        // a 200, or any status the driver does not retry, is handed back
        if outcome.resp.status == 200 || !RetryableStatus(outcome.resp.status) {
          FinalStep(outcomes, attempt, maxAttempts, base, waits);
          return attempt + 1, waits, Returned(outcome.resp);
        }
      }
      // a retryable status or a network error: count the attempt and sleep
      var wait := Backoff(outcome, attempt + 1, base);
      if wait < 0.0 {
        // time.sleep raises ValueError, which escapes the loop
        RejectStep(outcomes, attempt, maxAttempts, base, waits);
        return attempt + 1, waits, SleepRejected(wait);
      }
      RetryStep(outcomes, attempt, maxAttempts, base, waits);
      waits := waits + [wait];
      attempt := attempt + 1;
    }
    ExhaustedStep(outcomes, attempt, maxAttempts, base, waits);
    return attempt, waits, Exhausted;
  }

  /** The driver raises `RuntimeError` exactly when every attempt the
      budget allows failed in a retryable way and was followed by a sleep. */
  lemma ExhaustedIffAllRetried(outcomes: seq<Outcome>, maxAttempts: int, base: real)
    requires maxAttempts <= |outcomes|
    ensures Dispatch(outcomes, maxAttempts, base).result.Exhausted?
            <==> forall i :: 0 <= i < Budget(maxAttempts) ==> Sleeps(outcomes[i], i + 1, base)
  {
    DispatchWaits(outcomes, 0, maxAttempts, base);
    var r := Dispatch(outcomes, maxAttempts, base);
    if r.result.Exhausted? {
      forall i | 0 <= i < Budget(maxAttempts)
        ensures Sleeps(outcomes[i], i + 1, base)
      {
        assert i < |r.waits|;
        assert Slept(outcomes[0 + i], 0 + i + 1, r.waits[i], base);
      }
    } else {
      assert !Sleeps(outcomes[r.calls - 1], r.calls, base);
    }
  }

  /** Back-offs are never negative for a non-negative base. */
  lemma BackoffNonNegative(o: Outcome, attempt: nat, base: real)
    requires attempt >= 1 && base >= 0.0
    ensures Backoff(o, attempt, base) >= 0.0
  {
    BackoffDoubles(base, attempt - 1);
  }

  /** With a non-negative base `time.sleep` never refuses a wait, and the
      driver raises exactly when every budgeted attempt failed retryably. */
  lemma NonNegativeBaseNeverRejects(outcomes: seq<Outcome>, maxAttempts: int, base: real)
    requires maxAttempts <= |outcomes| && base >= 0.0
    ensures !Dispatch(outcomes, maxAttempts, base).result.SleepRejected?
    ensures Dispatch(outcomes, maxAttempts, base).result.Exhausted?
            <==> forall i :: 0 <= i < Budget(maxAttempts) ==> Retried(outcomes[i])
  {
    ExhaustedIffAllRetried(outcomes, maxAttempts, base);
    forall i | 0 <= i < Budget(maxAttempts) && Retried(outcomes[i])
      ensures Sleeps(outcomes[i], i + 1, base)
    {
      BackoffNonNegative(outcomes[i], i + 1, base);
    }
  }

  /** A negative base: the first 503 asks `time.sleep` for -0.8 seconds,
      which raises after one call. */
  lemma NegativeBaseRejectsSleep(resp: Response)
    requires resp.status == 503
    ensures Dispatch([Answered(resp), Answered(resp), Answered(resp), Answered(resp)], 4, -1.0)
            == Run(1, [], SleepRejected(-0.8))
  {
  }

  /** When every attempt fails, the driver makes exactly the budgeted number
      of calls and sleeps after each one, including the last. */
  lemma AllRetriedExhausts(outcomes: seq<Outcome>, maxAttempts: int, base: real)
    requires maxAttempts <= |outcomes|
    requires forall i :: 0 <= i < Budget(maxAttempts) ==> Sleeps(outcomes[i], i + 1, base)
    ensures Dispatch(outcomes, maxAttempts, base).result == Exhausted
    ensures Dispatch(outcomes, maxAttempts, base).calls == Budget(maxAttempts)
    ensures |Dispatch(outcomes, maxAttempts, base).waits| == Budget(maxAttempts)
  {
    ExhaustedIffAllRetried(outcomes, maxAttempts, base);
  }

  /** A 200 or a non-retryable status on the first call ends the run at once,
      with no wait. */
  lemma FinalOnFirstCall(outcomes: seq<Outcome>, maxAttempts: int, base: real)
    requires 1 <= maxAttempts <= |outcomes|
    requires outcomes[0].Answered? && !RetryableStatus(outcomes[0].resp.status)
    ensures Dispatch(outcomes, maxAttempts, base) == Run(1, [], Returned(outcomes[0].resp))
  {
  }

  /** One retryable failure followed by a 200: two calls, one wait of the
      first back-off, and the 200 response. */
  lemma RecoversAfterOneRetry(outcomes: seq<Outcome>, maxAttempts: int, base: real)
    requires 2 <= maxAttempts <= |outcomes|
    requires Sleeps(outcomes[0], 1, base)
    requires outcomes[1].Answered? && outcomes[1].resp.status == 200
    ensures Dispatch(outcomes, maxAttempts, base)
            == Run(2, [Backoff(outcomes[0], 1, base)], Returned(outcomes[1].resp))
  {
    assert DispatchFrom(outcomes, 1, maxAttempts, base) == Run(1, [], Returned(outcomes[1].resp));
  }

  /** `base * 2^k` doubles from one attempt to the next and never drops
      below `base` when the base is non-negative. */
  lemma {:induction false} BackoffDoubles(base: real, k: nat)
    requires base >= 0.0
    ensures base * (Pow2(k + 1) as real) == base * (Pow2(k) as real) + base * (Pow2(k) as real)
    ensures base * (Pow2(k) as real) >= base
  {
    var p := Pow2(k) as real;
    assert Pow2(k + 1) as real == p + p;
    assert base * (p + p) == base * p + base * p;
    if k > 0 {
      BackoffDoubles(base, k - 1);
    }
  }

  /** Two consecutive calls that both got a retryable status: the second wait
      is longer, for any non-negative base. */
  lemma StatusWaitsIncrease(outcomes: seq<Outcome>, maxAttempts: int, base: real, i: nat)
    requires maxAttempts <= |outcomes| && base >= 0.0
    requires i + 1 < |Dispatch(outcomes, maxAttempts, base).waits|
    requires outcomes[i].Answered? && outcomes[i + 1].Answered?
    ensures Dispatch(outcomes, maxAttempts, base).waits[i]
            < Dispatch(outcomes, maxAttempts, base).waits[i + 1]
  {
    DispatchWaits(outcomes, 0, maxAttempts, base);
    var w := Dispatch(outcomes, maxAttempts, base).waits;
    assert w[i] == Backoff(outcomes[0 + i], 0 + i + 1, base);
    assert w[i + 1] == Backoff(outcomes[0 + (i + 1)], 0 + (i + 1) + 1, base);
    StatusBackoffGrows(outcomes[i], outcomes[i + 1], i + 1, base);
  }

  lemma StatusBackoffGrows(o1: Outcome, o2: Outcome, n: nat, base: real)
    requires n >= 1 && base >= 0.0
    requires o1.Answered? && o2.Answered?
    ensures Backoff(o1, n, base) < Backoff(o2, n + 1, base)
  {
    BackoffDoubles(base, n - 1);
    var low := base * (Pow2(n - 1) as real);
    assert Backoff(o1, n, base) == low + 0.2 * (n as real);
    assert Backoff(o2, n + 1, base) == low + low + 0.2 * ((n + 1) as real);
  }

  /** Two consecutive calls that both raised: the second wait is longer when
      the base is positive. */
  lemma NetWaitsIncrease(outcomes: seq<Outcome>, maxAttempts: int, base: real, i: nat)
    requires maxAttempts <= |outcomes| && base > 0.0
    requires i + 1 < |Dispatch(outcomes, maxAttempts, base).waits|
    requires outcomes[i].NetError? && outcomes[i + 1].NetError?
    ensures Dispatch(outcomes, maxAttempts, base).waits[i]
            < Dispatch(outcomes, maxAttempts, base).waits[i + 1]
  {
    DispatchWaits(outcomes, 0, maxAttempts, base);
    var w := Dispatch(outcomes, maxAttempts, base).waits;
    assert w[i] == Backoff(outcomes[0 + i], 0 + i + 1, base);
    assert w[i + 1] == Backoff(outcomes[0 + (i + 1)], 0 + (i + 1) + 1, base);
    NetBackoffGrows(outcomes[i], outcomes[i + 1], i + 1, base);
  }

  lemma NetBackoffGrows(o1: Outcome, o2: Outcome, n: nat, base: real)
    requires n >= 1 && base > 0.0
    requires o1.NetError? && o2.NetError?
    ensures Backoff(o1, n, base) < Backoff(o2, n + 1, base)
  {
    BackoffDoubles(base, n - 1);
    var low := base * (Pow2(n - 1) as real);
    assert low >= base;
    assert Backoff(o2, n + 1, base) == low + low;
  }

  /** With a zero base, back-to-back exceptions all wait zero seconds: the
      exception waits do not grow without a positive base. */
  lemma NetWaitsFlatAtZeroBase(outcomes: seq<Outcome>, maxAttempts: int, i: nat)
    requires maxAttempts <= |outcomes|
    requires i < |Dispatch(outcomes, maxAttempts, 0.0).waits|
    requires outcomes[i].NetError?
    ensures Dispatch(outcomes, maxAttempts, 0.0).waits[i] == 0.0
  {
    DispatchWaits(outcomes, 0, maxAttempts, 0.0);
    assert Dispatch(outcomes, maxAttempts, 0.0).waits[i] == Backoff(outcomes[0 + i], 0 + i + 1, 0.0);
  }
}

=== FILE: strings.dfy ===
/** String helpers shared by the model: prefixes, substrings, `', '.join`
    and Python's decimal rendering of integers (`str(n)`, `f"{n}"`). */
module Strings {

  /** `s.startswith(p)` */
  predicate StartsWith(s: string, p: string) {
    |p| <= |s| && s[..|p|] == p
  }

  lemma StartsWithConcat(p: string, q: string)
    ensures StartsWith(p + q, p)
  {
    assert (p + q)[..|p|] == p;
  }

  /** `sub` occurs in `s` starting at index `i`. */
  predicate OccursAt(s: string, sub: string, i: nat) {
    i + |sub| <= |s| && s[i..i + |sub|] == sub
  }

  /** `sub in s` */
  ghost predicate Contains(s: string, sub: string) {
    exists i: nat :: OccursAt(s, sub, i)
  }

  lemma ContainsMiddle(p: string, x: string, q: string)
    ensures Contains(p + x + q, x)
  {
    var s := p + x + q;
    assert s[|p|..|p| + |x|] == x;
    assert OccursAt(s, x, |p|);
  }

  lemma ContainsExtend(s: string, x: string, p: string, q: string)
    requires Contains(s, x)
    ensures Contains(p + s + q, x)
  {
    var i: nat :| OccursAt(s, x, i);
    var t := p + s + q;
    assert t[|p| + i..|p| + i + |x|] == s[i..i + |x|];
    assert OccursAt(t, x, |p| + i);
  }

  /** `sep.join(parts)` */
  function Join(sep: string, parts: seq<string>): (r: string)
    ensures |parts| == 1 ==> r == parts[0]
    ensures forall i :: 0 <= i < |parts| ==> Contains(r, parts[i])
  {
    if |parts| == 0 then ""
    else if |parts| == 1 then
      ContainsMiddle("", parts[0], "");
      assert "" + parts[0] + "" == parts[0];
      parts[0]
    else
      var rest := Join(sep, parts[1..]);
      ContainsMiddle("", parts[0], sep + rest);
      forall i | 1 <= i < |parts|
        ensures Contains(parts[0] + sep + rest, parts[i])
      {
        assert parts[i] == parts[1..][i - 1];
        ContainsExtend(rest, parts[i], parts[0] + sep, "");
        assert parts[0] + sep + rest + "" == parts[0] + sep + rest;
      }
      assert parts[0] + sep + rest == "" + parts[0] + (sep + rest);
      parts[0] + sep + rest
  }

  lemma JoinTwo(sep: string, a: string, b: string)
    ensures Join(sep, [a, b]) == a + sep + b
  {
    assert [a, b][1..] == [b];
  }

  predicate IsDigit(c: char) {
    '0' <= c <= '9'
  }

  predicate AllDigits(s: string) {
    forall i :: 0 <= i < |s| ==> IsDigit(s[i])
  }

  function DigitChar(d: nat): (c: char)
    requires d < 10
    ensures IsDigit(c)
  {
    ['0', '1', '2', '3', '4', '5', '6', '7', '8', '9'][d]
  }

  function DigitValue(c: char): (d: nat)
    requires IsDigit(c)
    ensures d < 10 && DigitChar(d) == c
  {
    (c as int - '0' as int) as nat
  }

  /** Decimal digits of `n`, most significant first, no leading zeros. */
  function NatToString(n: nat): (r: string)
    ensures |r| > 0 && AllDigits(r)
    ensures |r| > 1 ==> r[0] != '0'
    decreases n
  {
    if n < 10 then [DigitChar(n)]
    else NatToString(n / 10) + [DigitChar(n % 10)]
  }

  /** Python's `str` of an integer: a minus sign before negative values. */
  function IntToString(n: int): (r: string)
    ensures |r| > 0
    ensures n >= 0 <==> IsDigit(r[0])
  {
    if n >= 0 then NatToString(n) else "-" + NatToString(-n)
  }

  /** Reads back a string of decimal digits. */
  function ParseNat(s: string): nat
    requires AllDigits(s)
    decreases |s|
  {
    if |s| == 0 then 0
    else ParseNat(s[..|s| - 1]) * 10 + DigitValue(s[|s| - 1])
  }

  /** Decimal rendering and reading are inverse, so distinct numbers render
      distinctly. */
  lemma {:induction false} ParseNatToString(n: nat)
    ensures ParseNat(NatToString(n)) == n
    decreases n
  {
    if n >= 10 {
      var s := NatToString(n);
      ParseNatToString(n / 10);
      assert s[..|s| - 1] == NatToString(n / 10);
    }
  }
}
